=== FILE: README.md ===
# Membership verification bookkeeping, modelled in Dafny

This project models how a Discord bot keeps track of member verification:
new members must link an RSI (Star Citizen) account through an OAuth-style
web flow within a per-guild timeout, or they are kicked. The model covers
the rules that decide how the bot's three tables change:

- **member records**, keyed by the (discordId, guildId) pair with a status
  of `pending`, `verified`, `kicked` or `flagged`;
- **guild configuration rows**, keyed by guildId;
- **OAuth state tokens**, keyed by the token.

The tables are Dafny maps. Time is an integer number of milliseconds,
passed in. Every Discord or identity-provider call becomes an outcome
parameter, because the model never performs it: guild fetched or not,
move succeeded or not, code exchange produced a profile or failed.

Modules, one per part of the bot:

| module | file | what it models |
|---|---|---|
| `Wrappers` | wrappers.dfy | `Option`, for nullable columns and absent query parameters |
| `Schema` | schema.dfy | the three table shapes, the status enum, the config defaults, the table invariants |
| `CaseFold` | casefold.dfy | `toLowerCase`/`toUpperCase` on tags (ASCII) |
| `ListSet` | listset.dfy | the JSON list columns edited as sets: `includes`/`push` and `indexOf`/`splice` |
| `Blocklist` | blocklist.dfy | `checkBlocklist` |
| `VerifyLink` | verifylink.dfy | the verification URL built from the redirect URI (first-occurrence `replace`) |
| `OAuthFlow` | oauth.dfy | `/auth/start` and `/auth/callback` |
| `Membership` | membership.dfy | the join handler, `/verify`, `/unverify` |
| `TimeoutSweep` | timeout.dfy | `checkTimeouts`: select, group by guild, decide kick / remind / nothing |
| `CallToArms` | calltoarms.dfy | `onMessageCreate`: guards, authorisation, selection, move accounting |
| `ConfigCommand` | configcmd.dfy | `/config`: permission gate, lazy row creation, every subcommand's write |
| `Stats` | stats.dfy | `/stats` per-status counts |
| `Lifecycle` | lifecycle.dfy | all handlers as one state machine, with its invariant and cross-handler properties |

Several operations come in two forms, an operational definition and a
reference definition, with a proof that the two agree:

- The sweep's effect is given per record as `TimeoutSweep.SweptRecord`.
  It is proved equal to the grouped, guild-by-guild computation
  `TimeoutSweep.CheckTimeouts`.
- `checkBlocklist` is proved equivalent to an existential over orgs and
  entries: `Blocklist.SomeTagBlocked`.
- The move loop's result is proved equal to a recursive count:
  `CallToArms.CountMoved`.

Points where the code behaves in a way a reader might not expect, and
which the model follows:

- The sign-in flow sends no PKCE code challenge: `/auth/start` stores only
  the state token (src/oauth/router.ts:14-32).
- The callback writes the profile whatever the record's current status; it
  does not check whether the member is already verified
  (src/oauth/router.ts:83-98).
- Call-to-arms never reads the trigger-channel list, the call-to-arms
  enabled flag or a superadmin list (`CallToArms.IgnoresTriggerChannelsAndFlag`).
- `/unverify` does not clear `kickedAt`, so a pending record can carry a
  kick time (`Lifecycle.UnverifyOfKickedKeepsKickedAt`).
- With a one-hour timeout, a member who joined five minutes before a sweep
  has 55 minutes left. The reminder window is `45 min < remaining <= 60 min`
  (src/jobs/timeoutChecker.ts:106), so the record is unchanged but a
  reminder is sent (`TimeoutSweep.OneHourTimeoutScenario`).
- A newly created config row has `verificationEnabled = 0`
  (src/db/schema.ts:33), and `/config` is the only command that creates
  one (src/discord/commands/config.ts:14-31). So once the gate of the
  first "## Findings" row works, the first `/config` call on a guild,
  even `show`, stops the verification DM for later joins. As written the
  gate always throws first, no config row is ever created, and the DM is
  always sent.

Two places where the code contradicts what it itself promises are listed
under "## Findings". For each, the model has the code as written and the
corrected form, and the state machine `Lifecycle` uses the corrected form.

## Model

| member | source | states |
|---|---|---|
| Blocklist.CheckBlocklist | src/rsi/profile.ts:3-12 | true exactly when some org's tag equals some blocklist entry once both are lower-cased; false for an empty blocklist and for an empty org list |
| Blocklist.LowerAll | src/rsi/profile.ts:10 | the lowered set holds exactly the lower-cased entries |
| Blocklist.AnyTagIn | src/rsi/profile.ts:11 | `orgs.some(...)` is true exactly when some org's lower-cased tag is among the lowered entries |
| Blocklist.CaseInsensitiveExample | src/rsi/profile.ts:10-11 | blocklist `["GNET"]` blocks an org tagged `gnet` |
| Blocklist.NonMatchingExample | src/rsi/profile.ts:10-11 | an org whose tag matches no entry is not blocked |
| Blocklist.Monotone | src/rsi/profile.ts:10-11 | adding orgs or blocklist entries never turns a match into a non-match |
| Blocklist.OrderIndependent | src/rsi/profile.ts:10-11 | the verdict depends only on which orgs and entries are present, not on their order or repetition |
| CaseFold.LowerOfUpper | src/discord/commands/config.ts:263 | under the ASCII case mapping, upper-casing a tag before storing it changes nothing the lower-cased comparison sees |
| CaseFold.LowerIdempotent | src/rsi/profile.ts:10-11 | lower-casing twice is lower-casing once |
| CaseFold.UpperIdempotent | src/discord/commands/config.ts:263 | upper-casing a stored tag again leaves it unchanged |
| ListSet.IndexOf | src/discord/commands/config.ts:282 | -1 exactly when the element is absent, otherwise the index of its first occurrence |
| ListSet.Add | src/discord/commands/config.ts:262-279 | the result holds the old elements plus the new one; the old list is a prefix; it is unchanged exactly when the element was present; duplicate-freedom is kept |
| ListSet.Remove | src/discord/commands/config.ts:280-298 | unchanged when absent; otherwise exactly the first occurrence is cut out and the rest keep their order; duplicate-freedom is kept, and then the element is gone |
| ListSet.RemoveAfterAdd | src/discord/commands/config.ts:262-298 | adding an absent element and then removing it restores the list |
| ListSet.AddIdempotent | src/discord/commands/config.ts:262-279 | adding the same element twice is adding it once |
| ListSet.AddAfterRemoveSameElements | src/discord/commands/config.ts:262-298 | removing a listed element and adding it back keeps the same elements and length |
| VerifyLink.FindFrom | src/discord/events/guildMemberAdd.ts:63 | returns the first occurrence of the pattern at or after the start position, or none when there is none |
| VerifyLink.ReplaceFirst | src/discord/events/guildMemberAdd.ts:63 | `replace` with a string pattern: no occurrence leaves the string as it is; otherwise only the first occurrence is replaced |
| VerifyLink.VerifyUrl | src/discord/events/guildMemberAdd.ts:63 | the link ends with `/auth/start?guild=G&user=U`, preceded by the redirect URI with its first `/auth/callback` cut out |
| VerifyLink.UrlFromCallbackUri | src/discord/events/guildMemberAdd.ts:63 | a redirect URI `base + "/auth/callback"`, with no earlier occurrence of that path, gives `base + "/auth/start?guild=G&user=U"` |
| VerifyLink.UrlFromOtherUri | src/discord/events/guildMemberAdd.ts:63 | a redirect URI without `/auth/callback` gets the start path appended unchanged |
| OAuthFlow.AuthStart | src/oauth/router.ts:14-32 | missing or empty guild or user gives 400 with no token stored; otherwise exactly one new token bound to (user, guild, now) is added and the existing tokens are kept |
| OAuthFlow.LinkStatus | src/oauth/router.ts:73-80 | the status is `flagged` exactly when the guild's blocklist (empty without a config row) matches an org, and `verified` otherwise |
| OAuthFlow.UpdateMatching | src/oauth/router.ts:83-98 | only the token's own record changes, and it gets the profile, the status and the verification time; without such a record nothing changes |
| OAuthFlow.AuthCallback | src/oauth/router.ts:34-165 | missing params or an unknown state change nothing; a known token is always deleted; an expired token (age over 600000 ms) is rejected with no member change; a failed exchange changes no member; success writes only the token's record. After the update the page reports the status exactly when the member fetch succeeded and, for a verified link in a guild with a verified role, the role add succeeded; otherwise it is the 500 page |
| OAuthFlow.TokenSingleUse | src/oauth/router.ts:44-63 | replaying a state after any callback that found it gets "invalid state" and changes nothing |
| OAuthFlow.ExpiryBoundary | src/oauth/router.ts:55-60 | a token exactly ten minutes old is accepted; one a millisecond older is rejected |
| OAuthFlow.ElevenMinutesLate | src/oauth/router.ts:14-60 | a token issued at T and used at T + 11 min is rejected, the token is gone and no member changes |
| OAuthFlow.CallbackPreservesWellFormed | src/oauth/router.ts:83-98 | after any callback, a verified record carries a handle and a verification time |
| OAuthFlow.LinkOverwritesIdentity | src/oauth/router.ts:83-91 | a successful link writes every identity column, so no identity from an earlier link survives |
| Membership.OnGuildMemberAdd | src/discord/events/guildMemberAdd.ts:14-63 | afterwards exactly the (member, guild) record exists and nothing else changes. It is pending with `joinedAt = now` and no kick time. An existing record keeps its identity; a new one is the default pending record. The DM is skipped exactly when a config row exists with verification disabled; otherwise it carries the configured timeout (72 without a row) and the verify URL |
| Membership.VerifyCommand | src/discord/commands/verify.ts:20-51 | a verified record gets the "already verified" reply with its handle and nothing is written; a missing record is created as pending at `now`; an existing record is never changed; the link is the verify URL |
| Membership.UnverifyCommand | src/discord/commands/unverify.ts:23-69 | no record: "no record" and nothing changes. Otherwise only that record changes: it becomes pending with every identity column cleared and `joinedAt = now`, keeping its kick time and ids. Removing the verified role is attempted exactly when the guild has one configured |
| Membership.UnverifyTwice | src/discord/commands/unverify.ts:42-53 | unverifying twice leaves the table that unverifying once at the later time leaves |
| Membership.HandlersPreserveWellFormed | src/discord/events/guildMemberAdd.ts:17-43 | the join handler, `/verify` and `/unverify` keep every record under its own key and every verified record with a handle and verification time |
| Membership.SameLinkFromBothHandlers | src/discord/commands/verify.ts:51 | the join DM and `/verify` hand out the same link |
| TimeoutSweep.SweptRecord | src/jobs/timeoutChecker.ts:39-104 | a record is either unchanged or marked kicked at `now`; it changes only when it is pending, its guild was fetched and the guild's whole timeout has passed since it joined, and then it is kicked |
| TimeoutSweep.SweptStore | src/jobs/timeoutChecker.ts:15-121 | the table after a sweep keeps every key, and each record is swept on its own as `SweptRecord` says |
| TimeoutSweep.GatedSweptStore | src/discord/commands/config.ts:466-476 | a sweep that skips guilds with verification disabled: their records are untouched, every other record is swept as `SweptRecord` says |
| TimeoutSweep.Decide | src/jobs/timeoutChecker.ts:55-118 | kick exactly when `remaining <= 0`; remind exactly when `2700000 < remaining <= 3600000`; nothing otherwise |
| TimeoutSweep.OfGuild | src/jobs/timeoutChecker.ts:25-30 | a guild's group holds exactly the listed keys of that guild; duplicate-freedom is kept |
| TimeoutSweep.OfGuildAppend | src/jobs/timeoutChecker.ts:26-29 | appending a member extends only its own guild's group, at the end |
| TimeoutSweep.AddToGroupStep | src/jobs/timeoutChecker.ts:26-29 | one loop iteration of the grouping keeps "each group is the guild's members in listing order" |
| TimeoutSweep.GroupByGuild | src/jobs/timeoutChecker.ts:25-30 | there is one group per guild that occurs, created once, and it holds exactly that guild's members in listing order |
| TimeoutSweep.GroupingPartitions | src/jobs/timeoutChecker.ts:25-30 | every pending record lands in exactly one group, the one for its own guild |
| TimeoutSweep.SweepGuildMembers | src/jobs/timeoutChecker.ts:50-118 | within one guild, exactly the expired members are marked kicked at `now`; reminders go exactly to those in the window; no other record changes |
| TimeoutSweep.SweepGuilds | src/jobs/timeoutChecker.ts:32-48 | a guild that cannot be fetched is skipped and its members stay unchanged; the other guilds are still processed |
| TimeoutSweep.GroupedIffPending | src/jobs/timeoutChecker.ts:16-30 | a record is in some group exactly when it is pending |
| TimeoutSweep.NothingPendingNothingChanges | src/jobs/timeoutChecker.ts:22 | with no pending record, the early return is what the full sweep would do |
| TimeoutSweep.GroupedSweepIsReference | src/jobs/timeoutChecker.ts:32-118 | the grouped loop gives the table, kick list and reminder list of the per-record definition |
| TimeoutSweep.GroupedRecordIsSwept | src/jobs/timeoutChecker.ts:32-118 | the same agreement, for one record |
| TimeoutSweep.CheckTimeouts | src/jobs/timeoutChecker.ts:15-121 | the table after a sweep is the per-record definition; a record is kicked exactly when it changes; reminders go exactly to pending members of fetched guilds in the window |
| TimeoutSweep.SweepTouchesOnlyExpiredPending | src/jobs/timeoutChecker.ts:55-118 | a non-pending record is untouched; a reminded record is unchanged and not kicked; an unfetched guild's record is untouched; a kicked record has status kicked and `kickedAt = now` |
| TimeoutSweep.WindowsDisjoint | src/jobs/timeoutChecker.ts:55-106 | the kick and reminder cases never overlap, and more than an hour left means no action |
| TimeoutSweep.SweepIdempotent | src/jobs/timeoutChecker.ts:72-75 | a second sweep at the same instant changes nothing |
| TimeoutSweep.ReminderAtMostOnce | src/jobs/timeoutChecker.ts:106-107 | of sweeps exactly 15 minutes apart, at most one falls in the reminder window |
| TimeoutSweep.ReminderReached | src/jobs/timeoutChecker.ts:106-107 | starting with more than an hour left, some sweep a whole number of intervals later falls in the reminder window |
| TimeoutSweep.OneHourTimeoutScenario | src/jobs/timeoutChecker.ts:39-106 | with a one-hour timeout: joined 61 minutes ago means kicked; joined 5 minutes ago means unchanged but reminded |
| TimeoutSweep.SweepPreservesWellFormed | src/jobs/timeoutChecker.ts:72-75 | a sweep keeps the members table invariants |
| CallToArms.AnyHeld | src/discord/events/messageCreate.ts:37-39 | true exactly when the author holds some allowed role |
| CallToArms.Selection | src/discord/events/messageCreate.ts:69-74 | exactly the members who hold the trigger role, are in a voice channel, and are not already in the target; no member occurs more often than in the cache |
| CallToArms.SelectionAppend | src/discord/events/messageCreate.ts:69-74 | the filter keeps cache order: selecting from a concatenation is concatenating the selections |
| CallToArms.CountMoved | src/discord/events/messageCreate.ts:84-99 | at most the selection's size; all of it exactly when every move succeeds, zero exactly when every move fails |
| CallToArms.CheckGate | src/discord/events/messageCreate.ts:9-64 | the handler goes on exactly when every guard passes: not a bot; in a guild; some role mentioned; role and channel configured; role mentioned; author is a member holding an allowed role; target is voice-based; role cached. "Unauthorized" exactly when the earlier guards pass and no allowed role is held |
| CallToArms.MoveAll | src/discord/events/messageCreate.ts:84-99 | one attempt per selected member, in order; `moved + failed = selected`; moved equals the successful attempts |
| CallToArms.OnMessageCreate | src/discord/events/messageCreate.ts:7-116 | a failing guard makes no attempt; an empty selection replies "nothing to move" with no attempt; otherwise every selected member gets exactly one attempt and the counts add up |
| CallToArms.EmptyAllowListAuthorisesNobody | src/discord/events/messageCreate.ts:30-47 | an empty allowed-role list lets nobody through |
| CallToArms.IgnoresTriggerChannelsAndFlag | src/discord/events/messageCreate.ts:17-47 | the trigger-channel list and the enabled flag do not affect the outcome |
| CallToArms.RallyScenario | src/discord/events/messageCreate.ts:69-99 | five role holders, three in other voice channels: three attempts; one failure gives 2 moved, 1 failed |
| ConfigCommand.MayConfigure | src/discord/commands/config.ts:236-249 | a caller may configure exactly when they are a superadmin, have the Administrator permission, or hold a role named exactly `Council Member` |
| ConfigCommand.GetOrCreateConfig | src/discord/commands/config.ts:14-31 | returns the existing row unchanged, or inserts and returns the default row (72 hours, empty lists, verification 0, call-to-arms 1) |
| ConfigCommand.GetOrCreateIdempotent | src/discord/commands/config.ts:14-31 | a second call finds the row the first one left |
| ConfigCommand.EditRow | src/discord/commands/config.ts:258-532 | an edit keeps the row's guild, writes only when it replies "updated", and keeps the timeout in 1..720; `blocklist list`, `call-to-arms status`, `show` and `feature status` are exactly the edits that reply with a report, and they leave the row as it was |
| ConfigCommand.Execute | src/discord/commands/config.ts:236-562 | a caller who is not a superadmin, an Administrator or a Council Member holder changes nothing. Otherwise only the guild's row is created or edited, and it equals the subcommand's edit of the existing or default row. The config invariants are kept |
| ConfigCommand.Includes | src/discord/commands/config.ts:237-239 | `includes` throws on a missing list; on a list it is true exactly when the id is listed |
| ConfigCommand.ExecuteWith | src/discord/events/interactionCreate.ts:17-30 | with no superadmin list the gate throws, and the dispatcher's catch answers with the generic error reply and nothing is written; with a list it is `Execute` |
| ConfigCommand.AsWrittenChangesNothing | src/discord/commands/config.ts:236-239 | as written, every caller and every subcommand ends in the error reply and leaves the config table as it was |
| ConfigCommand.AsWrittenLocksOutAdministrator | src/discord/commands/config.ts:236-249 | an Administrator setting a 24-hour timeout: the intended command creates the row with that timeout, the command as written answers with the error reply and writes nothing |
| ConfigCommand.EditKeepsLists | src/discord/commands/config.ts:258-419 | every edit keeps all three lists duplicate-free and every blocklist tag upper case; a new row satisfies this |
| ConfigCommand.BlocklistAddSpec | src/discord/commands/config.ts:262-279 | the tag is upper-cased; if present the row is unchanged with "already present", otherwise it is appended |
| ConfigCommand.BlocklistRemoveSpec | src/discord/commands/config.ts:280-298 | the tag is upper-cased; if absent the row is unchanged with "not present"; otherwise its first occurrence is removed and the others keep their order |
| ConfigCommand.BlocklistAddThenRemove | src/discord/commands/config.ts:262-298 | adding an unlisted tag and then removing it restores the guild's row |
| ConfigCommand.AllowDenyRoleTouchOnlyTheirList | src/discord/commands/config.ts:334-376 | allow-role and deny-role edit only the allowed-role list, with add/remove set semantics; adding a listed role replies "already present" and removing an unlisted one "not present" |
| ConfigCommand.AllowDenyChannelTouchOnlyTheirList | src/discord/commands/config.ts:377-419 | allow- and deny-trigger-channel edit only the trigger-channel list, with add/remove set semantics and the same no-op replies |
| ConfigCommand.FeatureAndTimeoutWrites | src/discord/commands/config.ts:442-511 | enable/disable sets exactly one flag to 1 or 0; the timeout is written as given |
| ConfigCommand.IdSettersWriteOneField | src/discord/commands/config.ts:312-532 | the log-channel, verified-role, call-to-arms role and call-to-arms channel setters each write exactly their own column with the given id and reply "updated" |
| ConfigCommand.ReadsCreateTheRow | src/discord/commands/config.ts:297-306 | the four read-only subcommands (list at 297-306, status at 420, feature status at 487-495, show at 533-534) change nothing when the guild has a row, and only insert the default row when it has none |
| ConfigCommand.AddedTagIsBlocked | src/discord/commands/config.ts:262-279 | after a tag is added, a profile listing an org with that tag, in any ASCII letter case, is flagged by the blocklist check |
| Stats.GuildStats | src/discord/commands/stats.ts:23-49 | each count is the number of the guild's records with that status; the total is the sum of the four counts and equals the number of the guild's records |
| Stats.FirstJoinCountsOnePending | src/discord/commands/stats.ts:23-49 | a first join raises the pending count and the total by one and leaves the other counts alone |
| Stats.OtherGuildsDoNotCount | src/discord/commands/stats.ts:23-47 | a record of another guild changes none of the counts |
| Lifecycle.Step | src/discord/client.ts:28-30 | each event writes only its own tables: member events and sweeps the members table, `/auth/start` the tokens, the callback members and tokens, `/config` the config table; a sweep keeps every key and leaves the records of guilds with verification disabled alone |
| Lifecycle.StepPreservesWellFormed | src/db/schema.ts:3-35 | every event keeps the invariants: records under their own key, verified records with a handle and verification time, config rows under their own guild with a timeout in 1..720 |
| Lifecycle.RunPreservesWellFormed | src/db/schema.ts:3-35 | the invariants hold after any run of events from a well-formed state |
| Lifecycle.JoinThenSweep | src/jobs/timeoutChecker.ts:39-75 | with the corrected sweep of the second "## Findings" row: a member who joins at t0 is kicked by a sweep at t exactly when `t - t0` reaches the guild's timeout and the guild's verification is not disabled; otherwise the record is as the join left it. As written the flag plays no part (`Lifecycle.DisabledVerificationStillKicksAsWritten`) |
| Lifecycle.UnverifyThenRelink | src/discord/commands/unverify.ts:42-53 | after `/unverify` and a fresh link within ten minutes, the record has the new profile, the join time `/unverify` set, its old kick time, and the blocklist's status; the token is spent |
| Lifecycle.UnverifyOfKickedKeepsKickedAt | src/discord/commands/unverify.ts:42-53 | unverifying a kicked record gives a pending record that still has its kick time |
| Lifecycle.DisableTurnsVerificationOff | src/discord/commands/config.ts:466-471 | a permitted `/config feature disable verification` leaves the guild with verification disabled |
| Lifecycle.DisabledVerificationStillKicksAsWritten | src/jobs/timeoutChecker.ts:16-75 | as written: after verification is disabled, a member who joins gets no verification DM, yet a sweep once the timeout has passed kicks them |
| Lifecycle.DisabledVerificationNeverKicks | src/discord/commands/config.ts:466-476 | with the sweep that honours the flag, the same sequence leaves the member's record pending and as the join left it, at any later sweep |

## Left out

- Discord and HTTP transport is not modelled. This covers the gateway client, slash-command registration, embeds, DM, log and reply texts, and the HTML pages. Role add/remove and voice moves appear only as outcome parameters or as an "attempted" flag.
- `getAuthorizeUrl` and the identity-provider calls (`exchangeCode`, `fetchProfile`) are left out. The callback receives their combined result as a parameter.
- The lookup command is not part of this model: it is a read-only query plus presentation.
- Storage plumbing is not modelled: SQLite, migrations, and the autoincrement `id` column. Records are keyed by the unique (discordId, guildId) pair, so an update "by id" is an update by that key.
- Parsing is abstracted. ISO date strings are integer milliseconds, JSON list columns are sequences, and `randomBytes(32)` is a fresh token passed in with `token !in tokens`.
- Each handler reads the clock once, as `now`. The source reads it several times:
  - the sweep reads it per guild, and again for `kickedAt`;
  - the callback reads it for expiry and again for `verifiedAt`.
- Timers and concurrency are not modelled: the 15-minute `setInterval`, the startup run, and any overlap between sweeps or handlers. One sweep is one sequential function of `now`.
- CaseFold.Lower, CaseFold.Upper, CaseFold.LowerOfUpper, CaseFold.UpperIdempotent, ConfigCommand.AddedTagIsBlocked: case mapping is ASCII only, where the source uses JavaScript's full Unicode `toLowerCase`/`toUpperCase`. Outside ASCII the program's promise fails: a tag `ß` is stored as `SS` (src/discord/commands/config.ts:263), and the check lower-cases that to `ss`, which does not match an org tagged `ß` (src/rsi/profile.ts:10-11). A dotless `ı` fails the same way. So these lemmas hold for ASCII tags only.
- ConfigCommand.Execute: the superadmin list is a parameter. The application config module (src/config.ts) defines no `superadminIds` field; what the program does as written is under "## Findings".
- ConfigCommand.Execute: the `hours` range (1..720) and the feature choice list are enforced by Discord before the handler runs, so they are types here, not runtime checks.
- OAuthFlow.AuthCallback: the exception path for a failure of a Discord call made after the update is modelled only as the reply (the 500 page). The update itself is kept, as in the source. Failed DMs and log messages are swallowed by the source and do not appear.
- TimeoutSweep.CheckTimeouts: grouping is by the key's guildId, where the source groups by the record's `guildId` column. The two are equal under the members-table invariant. The kick path and the kick-failure path write the same update, so the kick's outcome is not a parameter.
- Lifecycle.JoinThenSweep: states the kick condition of the corrected sweep, which skips guilds with verification disabled; the code as written kicks regardless of the flag, as `Lifecycle.DisabledVerificationStillKicksAsWritten` states.
- Lifecycle.Step: a sweep is applied through `TimeoutSweep.GatedSweptStore`, the corrected sweep of "## Findings". It is `TimeoutSweep.SweptStore`, which `TimeoutSweep.CheckTimeouts` is proved equal to, with guilds whose verification is disabled treated as not fetched.

## Findings

| source | as written | input that shows it | evidently intended | confidence | as-written member | corrected member |
|---|---|---|---|---|---|---|
| src/discord/commands/config.ts:237 | the gate reads `config.discord.superadminIds`, which the application config (src/config.ts:11-27) does not define; `includes` on `undefined` throws, and the dispatcher's catch (src/discord/events/interactionCreate.ts:17-30) sends the generic error reply | an Administrator running `/config timeout` with 24 hours on a guild without a row: no row is created and the reply is the error message | superadmins, Administrators and holders of the `Council Member` role may configure; the superadmin list comes from configuration | not executed; the read is also a TypeScript type error, so the build may reject the file before it runs | ConfigCommand.AsWrittenChangesNothing, ConfigCommand.AsWrittenLocksOutAdministrator | ConfigCommand.Execute |
| src/jobs/timeoutChecker.ts:16-20 | the sweep selects every pending record and never reads `verificationEnabled`, while the disable reply (src/discord/commands/config.ts:474) tells the admin that new members will not be kicked for timeout | with the gate of the row above working, `/config feature disable verification`, then a join at t0 (no DM is sent), then a sweep at t0 plus the guild's timeout: the member is kicked | a guild with verification disabled is skipped by the sweep, as the reply says | not executed | Lifecycle.DisabledVerificationStillKicksAsWritten | TimeoutSweep.GatedSweptStore, Lifecycle.DisabledVerificationNeverKicks |

=== FILE: blocklist.dfy ===
/** The blocklist evaluator (`checkBlocklist`): does any org tag of a
    profile equal a blocklist entry once both are lower-cased? */
module Blocklist {
  import opened Schema
  import CaseFold

  /** The reference relation: a tag matches an entry ignoring case. */
  predicate TagMatches(tag: string, entry: string) {
    CaseFold.Lower(tag) == CaseFold.Lower(entry)
  }

  /** Some org of `orgs` has a tag matching some entry of `blocklist`. */
  ghost predicate SomeTagBlocked(orgs: seq<Org>, blocklist: seq<string>) {
    exists i, j :: 0 <= i < |orgs| && 0 <= j < |blocklist| && TagMatches(orgs[i].tag, blocklist[j])
  }

  /** The lower-cased entries, the set the source builds before matching. */
  function LowerAll(blocklist: seq<string>): (r: seq<string>)
    ensures forall t :: t in r <==> exists j :: 0 <= j < |blocklist| && CaseFold.Lower(blocklist[j]) == t
  {
    if |blocklist| == 0 then []
    else
      var rest := LowerAll(blocklist[1..]);
      assert forall j :: 1 <= j < |blocklist| ==> blocklist[j] == blocklist[1..][j - 1];
      [CaseFold.Lower(blocklist[0])] + rest
  }

  /** `orgs.some(org => blockedTags.has(org.tag.toLowerCase()))`. */
  function AnyTagIn(orgs: seq<Org>, blockedTags: seq<string>): (r: bool)
    ensures r <==> exists i :: 0 <= i < |orgs| && CaseFold.Lower(orgs[i].tag) in blockedTags
  {
    if |orgs| == 0 then false
    else if CaseFold.Lower(orgs[0].tag) in blockedTags then true
    else
      var r := AnyTagIn(orgs[1..], blockedTags);
      assert forall i :: 1 <= i < |orgs| ==> orgs[i] == orgs[1..][i - 1];
      r
  }

  /** `checkBlocklist(orgs, blocklistJson)`: an empty blocklist short-cuts to
      false; otherwise some org tag must be among the lower-cased entries. */
  function CheckBlocklist(orgs: seq<Org>, blocklist: seq<string>): (r: bool)
    ensures r <==> SomeTagBlocked(orgs, blocklist)
    ensures |blocklist| == 0 ==> !r
    ensures |orgs| == 0 ==> !r
  {
    if |blocklist| == 0 then false
    else
      var r := AnyTagIn(orgs, LowerAll(blocklist));
      assert r ==> SomeTagBlocked(orgs, blocklist) by {
        if r {
          var i :| 0 <= i < |orgs| && CaseFold.Lower(orgs[i].tag) in LowerAll(blocklist);
          var j :| 0 <= j < |blocklist| && CaseFold.Lower(blocklist[j]) == CaseFold.Lower(orgs[i].tag);
          assert TagMatches(orgs[i].tag, blocklist[j]);
        }
      }
      assert SomeTagBlocked(orgs, blocklist) ==> r by {
        if SomeTagBlocked(orgs, blocklist) {
          var i, j :| 0 <= i < |orgs| && 0 <= j < |blocklist| && TagMatches(orgs[i].tag, blocklist[j]);
          assert CaseFold.Lower(orgs[i].tag) in LowerAll(blocklist);
        }
      }
      r
  }

  /** Blocklist `["GNET"]` flags an org whose tag is `"gnet"`. */
  lemma CaseInsensitiveExample()
    ensures CheckBlocklist([Org("GoonNet", "gnet", "member")], ["GNET"])
  {
    assert CaseFold.Lower("gnet") == CaseFold.Lower("GNET") by {
      assert CaseFold.Lower("GNET") == "gnet";
      assert CaseFold.Lower("gnet") == "gnet";
    }
    assert TagMatches([Org("GoonNet", "gnet", "member")][0].tag, ["GNET"][0]);
  }

  /** Blocklist `["ABC"]` does not flag an org whose tag is `"XYZ"`. */
  lemma NonMatchingExample()
    ensures !CheckBlocklist([Org("Other", "XYZ", "member")], ["ABC"])
  {
    assert CaseFold.Lower("XYZ")[0] == 'x';
    assert CaseFold.Lower("ABC")[0] == 'a';
  }

  /** Adding entries or orgs never turns a match into a non-match. */
  lemma Monotone(orgs: seq<Org>, blocklist: seq<string>, moreOrgs: seq<Org>, moreEntries: seq<string>)
    requires CheckBlocklist(orgs, blocklist)
    ensures CheckBlocklist(orgs + moreOrgs, blocklist + moreEntries)
  {
    var i, j :| 0 <= i < |orgs| && 0 <= j < |blocklist| && TagMatches(orgs[i].tag, blocklist[j]);
    assert (orgs + moreOrgs)[i] == orgs[i];
    assert (blocklist + moreEntries)[j] == blocklist[j];
  }

  /** The result depends only on which orgs and entries occur, not on their
      order (nor on repetitions). */
  lemma OrderIndependent(orgs: seq<Org>, blocklist: seq<string>, orgs': seq<Org>, blocklist': seq<string>)
    requires forall o :: o in orgs <==> o in orgs'
    requires forall e :: e in blocklist <==> e in blocklist'
    ensures CheckBlocklist(orgs, blocklist) == CheckBlocklist(orgs', blocklist')
  {
    if CheckBlocklist(orgs, blocklist) {
      MatchTransfers(orgs, blocklist, orgs', blocklist');
    } else if CheckBlocklist(orgs', blocklist') {
      MatchTransfers(orgs', blocklist', orgs, blocklist);
    }
  }

  lemma MatchTransfers(orgs: seq<Org>, blocklist: seq<string>, orgs': seq<Org>, blocklist': seq<string>)
    requires forall o :: o in orgs ==> o in orgs'
    requires forall e :: e in blocklist ==> e in blocklist'
    requires CheckBlocklist(orgs, blocklist)
    ensures CheckBlocklist(orgs', blocklist')
  {
    var i, j :| 0 <= i < |orgs| && 0 <= j < |blocklist| && TagMatches(orgs[i].tag, blocklist[j]);
    assert orgs[i] in orgs';
    assert blocklist[j] in blocklist';
    var i' :| 0 <= i' < |orgs'| && orgs'[i'] == orgs[i];
    var j' :| 0 <= j' < |blocklist'| && blocklist'[j'] == blocklist[j];
    assert TagMatches(orgs'[i'].tag, blocklist'[j']);
  }
}

=== FILE: calltoarms.dfy ===
/** Call-to-arms (`onMessageCreate`): a message mentioning the configured
    role, written by a member holding an allowed role, moves every member
    with that role who sits in another voice channel into the target voice
    channel. Discord's caches are a snapshot parameter and each move's
    success is an outcome parameter. */
module CallToArms {
  import opened Wrappers
  import opened Schema

  /** A cached guild member: id, roles held, and current voice channel. */
  datatype GuildMember = GuildMember(id: string, roles: set<string>, voiceChannel: Option<string>)

  /** The parts of a message the handler reads. `authorRoles` is `None` when
      `message.member` is null. */
  datatype Message = Message(authorIsBot: bool, guildId: Option<string>, mentionedRoles: set<string>,
                             authorRoles: Option<set<string>>)

  /** The guild's caches: channels (with whether each is voice-based), roles,
      and members (after `members.fetch()`). */
  datatype GuildView = GuildView(channels: map<string, bool>, roles: set<string>, members: seq<GuildMember>)

  /** How the handler ends. Only `NothingToMove` and `Moved` reply. */
  datatype Outcome =
    | Ignored          // a guard returned silently
    | Unauthorized     // the author holds no allowed role
    | TargetNotVoice   // the target channel is missing or not voice-based
    | NothingToMove
    | Moved(moved: nat, failed: nat)

  /** `allowedRoles.some(roleId => member.roles.cache.has(roleId))`. */
  function AnyHeld(allowed: seq<string>, held: set<string>): (r: bool)
    ensures r <==> exists i :: 0 <= i < |allowed| && allowed[i] in held
  {
    if |allowed| == 0 then false
    else if allowed[0] in held then true
    else
      var r := AnyHeld(allowed[1..], held);
      assert forall i :: 1 <= i < |allowed| ==> allowed[i] == allowed[1..][i - 1];
      r
  }

  /** The filter on the member cache. */
  predicate Eligible(m: GuildMember, roleId: string, targetId: string) {
    roleId in m.roles && m.voiceChannel.Some? && m.voiceChannel.value != targetId
  }

  /** The members to move, in cache order: each eligible cached member as
      often as the cache lists it, and no other member. The order is stated
      by `SelectionAppend`. */
  function Selection(members: seq<GuildMember>, roleId: string, targetId: string): (r: seq<GuildMember>)
    ensures forall m :: m in r <==> m in members && Eligible(m, roleId, targetId)
    ensures forall m :: multiset(r)[m] <= multiset(members)[m]
  {
    if |members| == 0 then []
    else
      var rest := Selection(members[1..], roleId, targetId);
      assert members == [members[0]] + members[1..];
      assert multiset(members) == multiset{members[0]} + multiset(members[1..]);
      assert forall m :: m in members <==> m == members[0] || m in members[1..];
      if Eligible(members[0], roleId, targetId) then
        assert multiset([members[0]] + rest) == multiset{members[0]} + multiset(rest);
        [members[0]] + rest
      else rest
  }

  /** The outcome of the guards, or the selection to move. */
  datatype Gate = Stop(outcome: Outcome) | Proceed(roleId: string, targetId: string, selection: seq<GuildMember>)

  /** The guards of the handler, in the source's order. */
  function CheckGate(msg: Message, configs: ConfigStore, guild: GuildView): (g: Gate)
    ensures g.Stop? ==> g.outcome in {Ignored, Unauthorized, TargetNotVoice}
    ensures g.Proceed? <==>
      && !msg.authorIsBot && msg.guildId.Some? && |msg.mentionedRoles| > 0
      && msg.guildId.value in configs
      && Truthy(configs[msg.guildId.value].callToArmsRoleId)
      && Truthy(configs[msg.guildId.value].callToArmsChannelId)
      && configs[msg.guildId.value].callToArmsRoleId.value in msg.mentionedRoles
      && msg.authorRoles.Some?
      && (exists r :: r in configs[msg.guildId.value].callToArmsAllowedRoles && r in msg.authorRoles.value)
      && configs[msg.guildId.value].callToArmsChannelId.value in guild.channels
      && guild.channels[configs[msg.guildId.value].callToArmsChannelId.value]
      && configs[msg.guildId.value].callToArmsRoleId.value in guild.roles
    ensures g.Proceed? ==>
      var cfg := configs[msg.guildId.value];
      && g.roleId == cfg.callToArmsRoleId.value && g.targetId == cfg.callToArmsChannelId.value
      && g.selection == Selection(guild.members, g.roleId, g.targetId)
    ensures g == Stop(Unauthorized) ==>
      msg.guildId.Some? && msg.guildId.value in configs && msg.authorRoles.Some?
      && forall r :: r in configs[msg.guildId.value].callToArmsAllowedRoles ==> r !in msg.authorRoles.value
    ensures (&& !msg.authorIsBot && msg.guildId.Some? && |msg.mentionedRoles| > 0
             && msg.guildId.value in configs
             && Truthy(configs[msg.guildId.value].callToArmsRoleId)
             && Truthy(configs[msg.guildId.value].callToArmsChannelId)
             && configs[msg.guildId.value].callToArmsRoleId.value in msg.mentionedRoles
             && msg.authorRoles.Some?
             && !AnyHeld(configs[msg.guildId.value].callToArmsAllowedRoles, msg.authorRoles.value))
            ==> g == Stop(Unauthorized)
  {
    if msg.authorIsBot || msg.guildId.None? || |msg.mentionedRoles| == 0 then Stop(Ignored)
    else
      var gid := msg.guildId.value;
      if gid !in configs then Stop(Ignored)
      else
        var cfg := configs[gid];
        if !Truthy(cfg.callToArmsRoleId) || !Truthy(cfg.callToArmsChannelId) then Stop(Ignored)
        else if cfg.callToArmsRoleId.value !in msg.mentionedRoles then Stop(Ignored)
        else if msg.authorRoles.None? then Stop(Ignored)
        else if !AnyHeld(cfg.callToArmsAllowedRoles, msg.authorRoles.value) then
          Stop(Unauthorized)
        else if cfg.callToArmsChannelId.value !in guild.channels
                || !guild.channels[cfg.callToArmsChannelId.value] then Stop(TargetNotVoice)
        else if cfg.callToArmsRoleId.value !in guild.roles then Stop(Ignored)
        else
          Proceed(cfg.callToArmsRoleId.value, cfg.callToArmsChannelId.value,
                  Selection(guild.members, cfg.callToArmsRoleId.value, cfg.callToArmsChannelId.value))
  }

  /** How many of `selected` the outcome parameter lets move: all of them
      exactly when every move succeeds, none exactly when every move fails. */
  function CountMoved(selected: seq<GuildMember>, moveOk: string -> bool): (n: nat)
    ensures n <= |selected|
    ensures n == |selected| <==> forall i :: 0 <= i < |selected| ==> moveOk(selected[i].id)
    ensures n == 0 <==> forall i :: 0 <= i < |selected| ==> !moveOk(selected[i].id)
  {
    if |selected| == 0 then 0
    else CountMoved(selected[..|selected| - 1], moveOk) + (if moveOk(selected[|selected| - 1].id) then 1 else 0)
  }

  function Ids(members: seq<GuildMember>): seq<string> {
    seq(|members|, i requires 0 <= i < |members| => members[i].id)
  }

  /** The move loop: one attempt per selected member, in order; a failure is
      counted and the loop goes on. */
  method MoveAll(selected: seq<GuildMember>, moveOk: string -> bool)
    returns (moved: nat, failed: nat, attempts: seq<string>)
    ensures moved + failed == |selected|
    ensures moved == CountMoved(selected, moveOk)
    ensures attempts == Ids(selected)
  {
    moved, failed, attempts := 0, 0, [];
    var i := 0;
    while i < |selected|
      invariant 0 <= i <= |selected|
      invariant moved + failed == i
      invariant moved == CountMoved(selected[..i], moveOk)
      invariant attempts == Ids(selected[..i])
    {
      assert selected[..i + 1][..i] == selected[..i];
      attempts := attempts + [selected[i].id];
      if moveOk(selected[i].id) {
        moved := moved + 1;
      } else {
        failed := failed + 1;
      }
      i := i + 1;
    }
    assert selected[..i] == selected;
  }

  /** `onMessageCreate`: the guards, then "nothing to move" for an empty
      selection, otherwise one move attempt per selected member. */
  method OnMessageCreate(msg: Message, configs: ConfigStore, guild: GuildView, moveOk: string -> bool)
    returns (outcome: Outcome, attempts: seq<string>)
    ensures CheckGate(msg, configs, guild).Stop? ==>
              outcome == CheckGate(msg, configs, guild).outcome && attempts == []
    ensures CheckGate(msg, configs, guild).Proceed? && |CheckGate(msg, configs, guild).selection| == 0 ==>
              outcome == NothingToMove && attempts == []
    ensures CheckGate(msg, configs, guild).Proceed? && |CheckGate(msg, configs, guild).selection| > 0 ==>
              var sel := CheckGate(msg, configs, guild).selection;
              && outcome.Moved?
              && outcome.moved + outcome.failed == |sel|
              && outcome.moved == CountMoved(sel, moveOk)
              && attempts == Ids(sel)
  {
    var gate := CheckGate(msg, configs, guild);
    if gate.Stop? {
      return gate.outcome, [];
    }
    if |gate.selection| == 0 {
      return NothingToMove, [];
    }
    var moved, failed;
    moved, failed, attempts := MoveAll(gate.selection, moveOk);
    outcome := Moved(moved, failed);
  }

  /** An empty allowed-role list authorises nobody. */
  lemma EmptyAllowListAuthorisesNobody(msg: Message, configs: ConfigStore, guild: GuildView)
    requires msg.guildId.Some? && msg.guildId.value in configs
    requires configs[msg.guildId.value].callToArmsAllowedRoles == []
    ensures CheckGate(msg, configs, guild).Stop?
  {
  }

  /** The trigger-channel list and the enabled flag play no part. */
  lemma IgnoresTriggerChannelsAndFlag(msg: Message, configs: ConfigStore, guild: GuildView,
                                      gid: string, channels: seq<string>, enabled: int)
    requires gid in configs
    ensures CheckGate(msg, configs, guild)
            == CheckGate(msg, configs[gid := configs[gid].(callToArmsTriggerChannels := channels,
                                                           callToArmsEnabled := enabled)], guild)
  {
  }

  /** The filter on a list with a first element. */
  lemma SelectionCons(m: GuildMember, rest: seq<GuildMember>, roleId: string, targetId: string)
    ensures Selection([m] + rest, roleId, targetId)
            == (if Eligible(m, roleId, targetId) then [m] else []) + Selection(rest, roleId, targetId)
  {
    assert ([m] + rest)[1..] == rest;
  }

  /** The filter keeps order: selecting from a concatenation is
      concatenating the selections, so an earlier cached member is moved
      before a later one. */
  lemma {:induction false} SelectionAppend(a: seq<GuildMember>, b: seq<GuildMember>, roleId: string, targetId: string)
    ensures Selection(a + b, roleId, targetId) == Selection(a, roleId, targetId) + Selection(b, roleId, targetId)
    decreases |a|
  {
    if |a| == 0 {
      assert a + b == b;
    } else {
      SelectionAppend(a[1..], b, roleId, targetId);
      SelectionAppendStep(a[0], a[1..], b, roleId, targetId);
      assert a == [a[0]] + a[1..];
    }
  }

  /** One step of `SelectionAppend`: a first member goes in front of both sides. */
  lemma SelectionAppendStep(x: GuildMember, tail: seq<GuildMember>, b: seq<GuildMember>, roleId: string, targetId: string)
    requires Selection(tail + b, roleId, targetId) == Selection(tail, roleId, targetId) + Selection(b, roleId, targetId)
    ensures Selection([x] + tail + b, roleId, targetId)
            == Selection([x] + tail, roleId, targetId) + Selection(b, roleId, targetId)
  {
    var head := if Eligible(x, roleId, targetId) then [x] else [];
    assert [x] + tail + b == [x] + (tail + b);
    SelectionCons(x, tail + b, roleId, targetId);
    SelectionCons(x, tail, roleId, targetId);
    var st, sb := Selection(tail, roleId, targetId), Selection(b, roleId, targetId);
    assert head + (st + sb) == (head + st) + sb;
  }

  /** Five members hold the rally role; three sit in other voice channels
      and two are not connected. */
  function RallyMembers(): seq<GuildMember> {
    [GuildMember("a", {"rally"}, Some("lobby")),
     GuildMember("b", {"rally"}, Some("ops")),
     GuildMember("c", {"rally"}, Some("lobby")),
     GuildMember("d", {"rally"}, None),
     GuildMember("e", {"rally"}, None)]
  }

  /** The filter unrolled at position `i`. */
  lemma SelectionAt(ms: seq<GuildMember>, i: nat, roleId: string, targetId: string)
    requires i < |ms|
    ensures Selection(ms[i..], roleId, targetId)
            == (if Eligible(ms[i], roleId, targetId) then [ms[i]] else []) + Selection(ms[i + 1..], roleId, targetId)
  {
    assert ms[i..] == [ms[i]] + ms[i + 1..];
    SelectionCons(ms[i], ms[i + 1..], roleId, targetId);
  }

  /** Selection from five members of which the first three are eligible. */
  lemma SelectionFirstThree(m: seq<GuildMember>, roleId: string, targetId: string)
    requires |m| == 5
    requires Eligible(m[0], roleId, targetId) && Eligible(m[1], roleId, targetId) && Eligible(m[2], roleId, targetId)
    requires !Eligible(m[3], roleId, targetId) && !Eligible(m[4], roleId, targetId)
    ensures Selection(m, roleId, targetId) == m[..3]
  {
    SelectionAt(m, 4, roleId, targetId);
    assert m[5..] == [];
    SelectionAt(m, 3, roleId, targetId);
    SelectionAt(m, 2, roleId, targetId);
    SelectionAt(m, 1, roleId, targetId);
    SelectionAt(m, 0, roleId, targetId);
    assert m[0..] == m;
    assert m[..3] == [m[0]] + ([m[1]] + ([m[2]] + []));
  }

  lemma RallySelection()
    ensures Selection(RallyMembers(), "rally", "muster") == RallyMembers()[..3]
  {
    SelectionFirstThree(RallyMembers(), "rally", "muster");
  }

  lemma RallyCount(sel: seq<GuildMember>, ok: string -> bool)
    requires |sel| == 3 && ok(sel[0].id) && !ok(sel[1].id) && ok(sel[2].id)
    ensures CountMoved(sel, ok) == 2
  {
    var s2 := sel[..2];
    var s1 := sel[..1];
    assert s2[..1] == s1 && s2[1] == sel[1];
    assert s1[..0] == [] && s1[0] == sel[0];
    assert CountMoved([], ok) == 0;
    assert CountMoved(s1, ok) == 1;
    assert CountMoved(s2, ok) == 1;
  }

  /** From the five members above, exactly three moves are attempted, and
      when one of them fails the count is two moved, one failed. */
  lemma RallyIds(sel: seq<GuildMember>)
    requires |sel| == 3 && sel[0].id == "a" && sel[1].id == "b" && sel[2].id == "c"
    ensures Ids(sel) == ["a", "b", "c"]
  {
  }

  lemma RallyScenario()
    ensures var sel := Selection(RallyMembers(), "rally", "muster");
            && Ids(sel) == ["a", "b", "c"]
            && CountMoved(sel, id => id != "b") == 2
            && |sel| - CountMoved(sel, id => id != "b") == 1
  {
    var sel := Selection(RallyMembers(), "rally", "muster");
    assert |sel| == 3 && sel[0].id == "a" && sel[1].id == "b" && sel[2].id == "c" by {
      RallySelection();
    }
    RallyIds(sel);
    RallyCount(sel, id => id != "b");
  }
}

=== FILE: casefold.dfy ===
/** ASCII case mapping, standing in for JavaScript's `toLowerCase` and
    `toUpperCase` on the org tags the bot compares. */
module CaseFold {

  function LowerChar(c: char): char {
    if 'A' <= c <= 'Z' then (c as int + 32) as char else c
  }

  function UpperChar(c: char): char {
    if 'a' <= c <= 'z' then (c as int - 32) as char else c
  }

  function Lower(s: string): string {
    seq(|s|, i requires 0 <= i < |s| => LowerChar(s[i]))
  }

  function Upper(s: string): string {
    seq(|s|, i requires 0 <= i < |s| => UpperChar(s[i]))
  }

  /** Upper-casing a tag before storing it loses nothing a lower-cased
      comparison can see. */
  lemma LowerOfUpper(s: string)
    ensures Lower(Upper(s)) == Lower(s)
  {
    forall i | 0 <= i < |s|
      ensures Lower(Upper(s))[i] == Lower(s)[i]
    {
      var c := s[i];
      if 'a' <= c <= 'z' {
        assert UpperChar(c) == (c as int - 32) as char;
      }
    }
  }

  /** Lower-casing is idempotent. */
  lemma LowerIdempotent(s: string)
    ensures Lower(Lower(s)) == Lower(s)
  {
    forall i | 0 <= i < |s|
      ensures Lower(Lower(s))[i] == Lower(s)[i]
    {
    }
  }

  /** Upper-casing is idempotent: a stored tag is already upper case. */
  lemma UpperIdempotent(s: string)
    ensures Upper(Upper(s)) == Upper(s)
  {
    forall i | 0 <= i < |s|
      ensures Upper(Upper(s))[i] == Upper(s)[i]
    {
    }
  }
}

=== FILE: configcmd.dfy ===
/** The `/config` command: a permission gate, the lazily created config row,
    and the subcommands that edit it. The value range of `timeout` and the
    choice list of `feature` are enforced by Discord before the handler
    runs, so they appear here as types. */
module ConfigCommand {
  import opened Wrappers
  import opened Schema
  import CaseFold
  import ListSet
  import Blocklist

  /** The `hours` option: `setMinValue(1)`, `setMaxValue(720)`. */
  type TimeoutHours = h: int | 1 <= h <= 720 witness 72

  datatype Feature = VerificationFeature | CallToArmsFeature

  datatype Subcommand =
    | SetTimeout(hours: TimeoutHours)
    | SetLogChannel(channelId: string)
    | SetVerifiedRole(roleId: string)
    | BlocklistAdd(tag: string)
    | BlocklistRemove(tag: string)
    | BlocklistList
    | CallToArmsRole(roleId: string)
    | CallToArmsChannel(channelId: string)
    | AllowRole(roleId: string)
    | DenyRole(roleId: string)
    | AllowTriggerChannel(channelId: string)
    | DenyTriggerChannel(channelId: string)
    | CallToArmsStatus
    | Show
    | FeatureEnable(feature: Feature)
    | FeatureDisable(feature: Feature)
    | FeatureStatus

  /** The invoking user: id, whether they have the Administrator
      permission, and the names of their roles. */
  datatype Caller = Caller(userId: string, isAdministrator: bool, roleNames: seq<string>)

  datatype Reply =
    | PermissionDenied
    | Updated            // the row was written
    | AlreadyPresent     // add of an element already listed: nothing written
    | NotPresent         // remove of an element not listed: nothing written
    | Report             // list, status and show: read only
    | CommandError       // the dispatcher's reply to a thrown exception

  datatype ConfigResult = ConfigResult(configs: ConfigStore, reply: Reply)

  const COUNCIL_ROLE: string := "Council Member"

  /** A superadmin, an Administrator, or a holder of the "Council Member"
      role may use the command. */
  predicate MayConfigure(caller: Caller, superadmins: seq<string>) {
    caller.userId in superadmins || caller.isAdministrator || COUNCIL_ROLE in caller.roleNames
  }

  /** `getOrCreateConfig`: the existing row, or a newly inserted default row. */
  function GetOrCreateConfig(configs: ConfigStore, guildId: string): (r: (ConfigStore, GuildConfig))
    ensures guildId in r.0 && r.0[guildId] == r.1
    ensures guildId in configs ==> r.0 == configs
    ensures guildId !in configs ==> r.0 == configs[guildId := DefaultConfig(guildId)]
    ensures guildId !in configs ==>
              && r.1.guildId == guildId && r.1.timeoutHours == 72
              && r.1.blocklist == [] && r.1.callToArmsAllowedRoles == [] && r.1.callToArmsTriggerChannels == []
              && r.1.verificationEnabled == 0 && r.1.callToArmsEnabled == 1
              && r.1.logChannelId.None? && r.1.verifiedRoleId.None?
              && r.1.callToArmsRoleId.None? && r.1.callToArmsChannelId.None?
  {
    if guildId in configs then (configs, configs[guildId])
    else (configs[guildId := DefaultConfig(guildId)], DefaultConfig(guildId))
  }

  /** Calling it again finds the row the first call left. */
  lemma GetOrCreateIdempotent(configs: ConfigStore, guildId: string)
    ensures var (c1, row1) := GetOrCreateConfig(configs, guildId);
            GetOrCreateConfig(c1, guildId) == (c1, row1)
  {
  }

  /** A row edit: the row to write back, and the reply. */
  datatype RowEdit = RowEdit(row: GuildConfig, reply: Reply)

  /** A set-like list edit: the list is written back only when it changed. */
  function ListEdit(row: GuildConfig, current: seq<string>, edited: seq<string>,
                    write: seq<string> -> GuildConfig, noChange: Reply): RowEdit {
    if edited == current then RowEdit(row, noChange) else RowEdit(write(edited), Updated)
  }

  /** One subcommand applied to the guild's (existing or new) row. */
  function EditRow(row: GuildConfig, cmd: Subcommand): (e: RowEdit)
    ensures e.row.guildId == row.guildId
    ensures e.reply in {Updated, AlreadyPresent, NotPresent, Report}
    ensures e.reply != Updated ==> e.row == row
    ensures cmd.BlocklistList? || cmd.CallToArmsStatus? || cmd.Show? || cmd.FeatureStatus? <==>
              e.reply == Report
    ensures e.reply == Report ==> e == RowEdit(row, Report)
    ensures MIN_TIMEOUT_HOURS <= row.timeoutHours <= MAX_TIMEOUT_HOURS ==>
              MIN_TIMEOUT_HOURS <= e.row.timeoutHours <= MAX_TIMEOUT_HOURS
  {
    match cmd
    case SetTimeout(h) => RowEdit(row.(timeoutHours := h), Updated)
    case SetLogChannel(c) => RowEdit(row.(logChannelId := Some(c)), Updated)
    case SetVerifiedRole(r) => RowEdit(row.(verifiedRoleId := Some(r)), Updated)
    case BlocklistAdd(tag) =>
      ListEdit(row, row.blocklist, ListSet.Add(row.blocklist, CaseFold.Upper(tag)),
               l => row.(blocklist := l), AlreadyPresent)
    case BlocklistRemove(tag) =>
      ListEdit(row, row.blocklist, ListSet.Remove(row.blocklist, CaseFold.Upper(tag)),
               l => row.(blocklist := l), NotPresent)
    case BlocklistList => RowEdit(row, Report)
    case CallToArmsRole(r) => RowEdit(row.(callToArmsRoleId := Some(r)), Updated)
    case CallToArmsChannel(c) => RowEdit(row.(callToArmsChannelId := Some(c)), Updated)
    case AllowRole(r) =>
      ListEdit(row, row.callToArmsAllowedRoles, ListSet.Add(row.callToArmsAllowedRoles, r),
               l => row.(callToArmsAllowedRoles := l), AlreadyPresent)
    case DenyRole(r) =>
      ListEdit(row, row.callToArmsAllowedRoles, ListSet.Remove(row.callToArmsAllowedRoles, r),
               l => row.(callToArmsAllowedRoles := l), NotPresent)
    case AllowTriggerChannel(c) =>
      ListEdit(row, row.callToArmsTriggerChannels, ListSet.Add(row.callToArmsTriggerChannels, c),
               l => row.(callToArmsTriggerChannels := l), AlreadyPresent)
    case DenyTriggerChannel(c) =>
      ListEdit(row, row.callToArmsTriggerChannels, ListSet.Remove(row.callToArmsTriggerChannels, c),
               l => row.(callToArmsTriggerChannels := l), NotPresent)
    case CallToArmsStatus => RowEdit(row, Report)
    case Show => RowEdit(row, Report)
    case FeatureEnable(VerificationFeature) => RowEdit(row.(verificationEnabled := 1), Updated)
    case FeatureEnable(CallToArmsFeature) => RowEdit(row.(callToArmsEnabled := 1), Updated)
    case FeatureDisable(VerificationFeature) => RowEdit(row.(verificationEnabled := 0), Updated)
    case FeatureDisable(CallToArmsFeature) => RowEdit(row.(callToArmsEnabled := 0), Updated)
    case FeatureStatus => RowEdit(row, Report)
  }

  /** `execute`: a caller who may not configure changes nothing; otherwise
      the guild's row is created when missing and the edit is written to it,
      and no other guild's row changes. */
  function Execute(configs: ConfigStore, guildId: string, caller: Caller, superadmins: seq<string>,
                   cmd: Subcommand): (r: ConfigResult)
    ensures !MayConfigure(caller, superadmins) ==> r == ConfigResult(configs, PermissionDenied)
    ensures MayConfigure(caller, superadmins) ==>
              && r.configs.Keys == configs.Keys + {guildId}
              && (forall g :: g in configs && g != guildId ==> r.configs[g] == configs[g])
              && RowEdit(r.configs[guildId], r.reply) == EditRow(RowBefore(configs, guildId), cmd)
    ensures ConfigsWellFormed(configs) ==> ConfigsWellFormed(r.configs)
  {
    if !MayConfigure(caller, superadmins) then ConfigResult(configs, PermissionDenied)
    else
      var (cs, row) := GetOrCreateConfig(configs, guildId);
      var e := EditRow(row, cmd);
      ConfigResult(cs[guildId := e.row], e.reply)
  }

  /** The row of `guildId` that a permitted command starts from. */
  function RowBefore(configs: ConfigStore, guildId: string): GuildConfig {
    GetOrCreateConfig(configs, guildId).1
  }

  // ---------------------------------------------------------------------
  // The gate as written: the superadmin list is read from a field the
  // application config does not have.

  /** `config.discord.superadminIds` as src/config.ts defines the
      application config: the `discord` section has no such field, so the
      read gives `undefined`. */
  const APP_SUPERADMIN_IDS: Option<seq<string>> := None

  /** `ids.includes(userId)`: `None` when the call throws, which it does on
      `undefined`. */
  function Includes(ids: Option<seq<string>>, userId: string): (r: Option<bool>)
    ensures r.None? <==> ids.None?
    ensures r.Some? ==> (r.value <==> userId in ids.value)
  {
    match ids
    case None => None
    case Some(l) => Some(userId in l)
  }

  /** `execute` with the superadmin list read from `field`, inside the
      dispatcher's `try`: a throw in the gate ends the command with the
      generic error reply, before any subcommand reads or writes the table. */
  function ExecuteWith(configs: ConfigStore, guildId: string, caller: Caller,
                       field: Option<seq<string>>, cmd: Subcommand): (r: ConfigResult)
    ensures field.None? ==> r.configs == configs && r.reply == CommandError
    ensures field.Some? ==> r == Execute(configs, guildId, caller, field.value, cmd)
  {
    match Includes(field, caller.userId)
    case None => ConfigResult(configs, CommandError)
    case Some(_) => Execute(configs, guildId, caller, field.value, cmd)
  }

  /** `/config` as the program is written. */
  function ExecuteAsWritten(configs: ConfigStore, guildId: string, caller: Caller, cmd: Subcommand): ConfigResult {
    ExecuteWith(configs, guildId, caller, APP_SUPERADMIN_IDS, cmd)
  }

  /** As written, no caller and no subcommand gets past the gate: every
      invocation ends in the error reply and the config table is unchanged. */
  lemma AsWrittenChangesNothing(configs: ConfigStore, guildId: string, caller: Caller, cmd: Subcommand)
    ensures ExecuteAsWritten(configs, guildId, caller, cmd) == ConfigResult(configs, CommandError)
  {
  }

  /** The discrepancy on one input: an Administrator setting a 24-hour
      timeout on a guild without a row. The intended command creates the
      row with that timeout; the command as written answers with the error
      reply and writes nothing. */
  lemma AsWrittenLocksOutAdministrator(guildId: string)
    ensures var admin := Caller("u1", true, []);
            var intended := Execute(map[], guildId, admin, [], SetTimeout(24));
            var written := ExecuteAsWritten(map[], guildId, admin, SetTimeout(24));
            && intended.reply == Updated
            && guildId in intended.configs && intended.configs[guildId].timeoutHours == 24
            && written.reply == CommandError && written.configs == map[]
  {
    assert RowBefore(map[], guildId) == DefaultConfig(guildId);
  }

  /** The list invariants the commands keep: every list is duplicate-free
      and every blocklist tag is stored upper case. */
  predicate ListsWellFormed(row: GuildConfig) {
    && ListSet.NoDup(row.blocklist)
    && ListSet.NoDup(row.callToArmsAllowedRoles)
    && ListSet.NoDup(row.callToArmsTriggerChannels)
    && forall i :: 0 <= i < |row.blocklist| ==> CaseFold.Upper(row.blocklist[i]) == row.blocklist[i]
  }

  /** A new row starts with empty lists, and every edit keeps the list
      invariants. */
  lemma {:induction false} EditKeepsLists(row: GuildConfig, cmd: Subcommand)
    requires ListsWellFormed(row)
    ensures ListsWellFormed(EditRow(row, cmd).row)
    ensures forall g :: ListsWellFormed(DefaultConfig(g))
  {
    match cmd
    case BlocklistAdd(tag) =>
      var t := CaseFold.Upper(tag);
      CaseFold.UpperIdempotent(tag);
      var l := ListSet.Add(row.blocklist, t);
      forall i | 0 <= i < |l| ensures CaseFold.Upper(l[i]) == l[i] {
        if i < |row.blocklist| {
          assert l[i] == l[..|row.blocklist|][i] == row.blocklist[i];
        } else {
          assert l[i] in l;
        }
      }
    case BlocklistRemove(tag) =>
      var l := ListSet.Remove(row.blocklist, CaseFold.Upper(tag));
      forall i | 0 <= i < |l| ensures CaseFold.Upper(l[i]) == l[i] {
        assert l[i] in row.blocklist;
      }
    case _ =>
  }

  /** Blocklist add upper-cases the tag and appends it unless it is already
      listed; nothing else in the row changes. */
  lemma BlocklistAddSpec(row: GuildConfig, tag: string)
    ensures var e := EditRow(row, BlocklistAdd(tag));
            var t := CaseFold.Upper(tag);
            && (t in row.blocklist ==> e == RowEdit(row, AlreadyPresent))
            && (t !in row.blocklist ==> e == RowEdit(row.(blocklist := row.blocklist + [t]), Updated))
  {
    var t := CaseFold.Upper(tag);
    var l := ListSet.Add(row.blocklist, t);
    if t !in row.blocklist {
      assert l == row.blocklist + [t];
    }
  }

  /** Blocklist remove upper-cases the tag; an absent tag leaves the row
      alone, a present one loses its first occurrence and the other entries
      keep their order. */
  lemma BlocklistRemoveSpec(row: GuildConfig, tag: string)
    ensures var e := EditRow(row, BlocklistRemove(tag));
            var t := CaseFold.Upper(tag);
            && (t !in row.blocklist ==> e == RowEdit(row, NotPresent))
            && (t in row.blocklist ==>
                  && e.reply == Updated
                  && exists k :: 0 <= k < |row.blocklist| && row.blocklist[k] == t && t !in row.blocklist[..k]
                                 && e.row == row.(blocklist := row.blocklist[..k] + row.blocklist[k + 1..]))
  {
    var t := CaseFold.Upper(tag);
    if t in row.blocklist {
      assert |ListSet.Remove(row.blocklist, t)| != |row.blocklist|;
    }
  }

  /** Through the whole command: adding a tag that is not listed and then
      removing it restores the guild's row. */
  lemma {:induction false} BlocklistAddThenRemove(configs: ConfigStore, guildId: string, caller: Caller,
                                                  superadmins: seq<string>, tag: string)
    requires MayConfigure(caller, superadmins)
    requires CaseFold.Upper(tag) !in RowBefore(configs, guildId).blocklist
    ensures var r1 := Execute(configs, guildId, caller, superadmins, BlocklistAdd(tag));
            var r2 := Execute(r1.configs, guildId, caller, superadmins, BlocklistRemove(tag));
            r2.configs[guildId] == RowBefore(configs, guildId)
  {
    var row := RowBefore(configs, guildId);
    var t := CaseFold.Upper(tag);
    var r1 := Execute(configs, guildId, caller, superadmins, BlocklistAdd(tag));
    assert r1.configs[guildId] == row.(blocklist := ListSet.Add(row.blocklist, t));
    assert RowBefore(r1.configs, guildId) == r1.configs[guildId];
    ListSet.RemoveAfterAdd(row.blocklist, t);
  }

  /** Allow-role adds like a set and deny-role removes like a set, each on
      the allowed-role list only; an add of a listed role answers "already
      present" and a remove of an unlisted one "not present". */
  lemma AllowDenyRoleTouchOnlyTheirList(row: GuildConfig, id: string)
    ensures EditRow(row, AllowRole(id)).row
            == row.(callToArmsAllowedRoles := ListSet.Add(row.callToArmsAllowedRoles, id))
    ensures EditRow(row, DenyRole(id)).row
            == row.(callToArmsAllowedRoles := ListSet.Remove(row.callToArmsAllowedRoles, id))
    ensures EditRow(row, AllowRole(id)).reply == (if id in row.callToArmsAllowedRoles then AlreadyPresent else Updated)
    ensures EditRow(row, DenyRole(id)).reply == (if id in row.callToArmsAllowedRoles then Updated else NotPresent)
  {
  }

  /** Allow- and deny-trigger-channel do the same on the trigger-channel
      list only, with the same replies. */
  lemma AllowDenyChannelTouchOnlyTheirList(row: GuildConfig, id: string)
    ensures EditRow(row, AllowTriggerChannel(id)).row
            == row.(callToArmsTriggerChannels := ListSet.Add(row.callToArmsTriggerChannels, id))
    ensures EditRow(row, DenyTriggerChannel(id)).row
            == row.(callToArmsTriggerChannels := ListSet.Remove(row.callToArmsTriggerChannels, id))
    ensures EditRow(row, AllowTriggerChannel(id)).reply
            == (if id in row.callToArmsTriggerChannels then AlreadyPresent else Updated)
    ensures EditRow(row, DenyTriggerChannel(id)).reply
            == (if id in row.callToArmsTriggerChannels then Updated else NotPresent)
  {
  }

  /** `feature enable|disable` sets exactly one flag, to 1 or 0; the timeout
      is written as given. */
  lemma FeatureAndTimeoutWrites(row: GuildConfig, h: TimeoutHours)
    ensures EditRow(row, SetTimeout(h)).row == row.(timeoutHours := h)
    ensures EditRow(row, FeatureEnable(VerificationFeature)).row == row.(verificationEnabled := 1)
    ensures EditRow(row, FeatureDisable(VerificationFeature)).row == row.(verificationEnabled := 0)
    ensures EditRow(row, FeatureEnable(CallToArmsFeature)).row == row.(callToArmsEnabled := 1)
    ensures EditRow(row, FeatureDisable(CallToArmsFeature)).row == row.(callToArmsEnabled := 0)
  {
  }

  /** Each id setter writes exactly its own column, with the given id. */
  lemma IdSettersWriteOneField(row: GuildConfig, id: string)
    ensures EditRow(row, SetLogChannel(id)) == RowEdit(row.(logChannelId := Some(id)), Updated)
    ensures EditRow(row, SetVerifiedRole(id)) == RowEdit(row.(verifiedRoleId := Some(id)), Updated)
    ensures EditRow(row, CallToArmsRole(id)) == RowEdit(row.(callToArmsRoleId := Some(id)), Updated)
    ensures EditRow(row, CallToArmsChannel(id)) == RowEdit(row.(callToArmsChannelId := Some(id)), Updated)
  {
  }

  /** The four read-only subcommands write nothing to an existing row, and
      still create the row, with the defaults, when the guild has none. */
  lemma ReadsCreateTheRow(configs: ConfigStore, guildId: string, caller: Caller, superadmins: seq<string>,
                          cmd: Subcommand)
    requires MayConfigure(caller, superadmins)
    requires cmd.BlocklistList? || cmd.CallToArmsStatus? || cmd.Show? || cmd.FeatureStatus?
    ensures guildId in configs ==> Execute(configs, guildId, caller, superadmins, cmd) == ConfigResult(configs, Report)
    ensures guildId !in configs ==>
              Execute(configs, guildId, caller, superadmins, cmd)
              == ConfigResult(configs[guildId := DefaultConfig(guildId)], Report)
  {
  }

  /** After a tag is added, the callback flags any profile listing an org
      with that tag in any ASCII letter case. */
  lemma {:induction false} AddedTagIsBlocked(configs: ConfigStore, guildId: string, caller: Caller,
                                             superadmins: seq<string>, tag: string, orgs: seq<Org>, i: nat)
    requires MayConfigure(caller, superadmins)
    requires i < |orgs| && CaseFold.Lower(orgs[i].tag) == CaseFold.Lower(tag)
    ensures Blocklist.SomeTagBlocked(orgs,
              BlocklistOf(Execute(configs, guildId, caller, superadmins, BlocklistAdd(tag)).configs, guildId))
  {
    var row := RowBefore(configs, guildId);
    var t := CaseFold.Upper(tag);
    var l := BlocklistOf(Execute(configs, guildId, caller, superadmins, BlocklistAdd(tag)).configs, guildId);
    assert l == ListSet.Add(row.blocklist, t);
    assert t in l;
    var j :| 0 <= j < |l| && l[j] == t;
    CaseFold.LowerOfUpper(tag);
    assert Blocklist.TagMatches(orgs[i].tag, l[j]);
  }
}

=== FILE: lifecycle.dfy ===
/** The bot as one state machine over its three tables: every event the
    handlers react to is a transition, and the table invariants hold in
    every reachable state. */
module Lifecycle {
  import opened Wrappers
  import opened Schema
  import OAuthFlow
  import Membership
  import TimeoutSweep
  import ConfigCommand

  datatype State = State(members: MemberStore, configs: ConfigStore, tokens: StateStore)

  /** The events, each carrying the outcomes of the calls it makes outside
      the database. */
  datatype Event =
    | Join(memberId: string, guildId: string, now: int, redirectUri: string)
    | VerifyCmd(userId: string, guildId: string, now: int, redirectUri: string)
    | UnverifyCmd(userId: string, guildId: string, now: int)
    | Start(guild: Option<string>, user: Option<string>, token: string, now: int)
    | Callback(code: Option<string>, state: Option<string>, now: int,
               exchange: OAuthFlow.Exchange, discord: OAuthFlow.DiscordOutcome)
    | Sweep(now: int, guildFetched: string -> bool)
    | Configure(guildId: string, caller: ConfigCommand.Caller, superadmins: seq<string>,
                cmd: ConfigCommand.Subcommand)

  /** An event can happen in a state: a new state token is unused. */
  predicate Enabled(s: State, e: Event) {
    e.Start? ==> e.token !in s.tokens
  }

  /** The state after one event. Each handler writes only its own tables,
      and a sweep leaves the records of guilds with verification disabled
      alone. */
  function Step(s: State, e: Event): (r: State)
    requires Enabled(s, e)
    ensures (e.Join? || e.VerifyCmd? || e.UnverifyCmd? || e.Sweep?) ==>
              r.configs == s.configs && r.tokens == s.tokens
    ensures e.Start? ==> r.members == s.members && r.configs == s.configs
    ensures e.Callback? ==> r.configs == s.configs
    ensures e.Configure? ==> r.members == s.members && r.tokens == s.tokens
    ensures e.Sweep? ==> r.members.Keys == s.members.Keys
    ensures e.Sweep? ==> forall k :: k in s.members && VerificationDisabled(s.configs, k.guildId) ==>
                                     r.members[k] == s.members[k]
  {
    match e
    case Join(u, g, now, uri) =>
      s.(members := Membership.OnGuildMemberAdd(s.members, s.configs, u, g, now, uri).members)
    case VerifyCmd(u, g, now, uri) =>
      s.(members := Membership.VerifyCommand(s.members, u, g, now, uri).members)
    case UnverifyCmd(u, g, now) =>
      s.(members := Membership.UnverifyCommand(s.members, s.configs, u, g, now).members)
    case Start(guild, user, token, now) =>
      s.(tokens := OAuthFlow.AuthStart(s.tokens, guild, user, token, now).tokens)
    case Callback(code, state, now, exchange, discord) =>
      var r := OAuthFlow.AuthCallback(s.tokens, s.members, s.configs, code, state, now, exchange, discord);
      s.(members := r.members, tokens := r.tokens)
    case Sweep(now, fetched) =>
      s.(members := TimeoutSweep.GatedSweptStore(s.members, s.configs, now, fetched))
    case Configure(g, caller, admins, cmd) =>
      s.(configs := ConfigCommand.Execute(s.configs, g, caller, admins, cmd).configs)
  }

  predicate WellFormed(s: State) {
    MembersWellFormed(s.members) && ConfigsWellFormed(s.configs)
  }

  /** Every transition keeps the invariants: records sit under their own
      key, a verified record carries a handle and a verification time, and
      config rows sit under their own guild with a timeout in 1..720. */
  lemma {:induction false} StepPreservesWellFormed(s: State, e: Event)
    requires WellFormed(s) && Enabled(s, e)
    ensures WellFormed(Step(s, e))
  {
    match e
    case Join(u, g, now, uri) =>
      Membership.HandlersPreserveWellFormed(s.members, s.configs, u, g, now, uri);
    case VerifyCmd(u, g, now, uri) =>
      Membership.HandlersPreserveWellFormed(s.members, s.configs, u, g, now, uri);
    case UnverifyCmd(u, g, now) =>
      Membership.HandlersPreserveWellFormed(s.members, s.configs, u, g, now, "");
    case Start(guild, user, token, now) =>
    case Callback(code, state, now, exchange, discord) =>
      OAuthFlow.CallbackPreservesWellFormed(s.tokens, s.members, s.configs, code, state, now, exchange, discord);
    case Sweep(now, fetched) =>
      TimeoutSweep.SweepPreservesWellFormed(s.members, s.configs, now, TimeoutSweep.SweepsGuild(s.configs, fetched));
    case Configure(g, caller, admins, cmd) =>
  }

  /** A run of events, each enabled where it happens. */
  function Run(s: State, events: seq<Event>): Option<State>
    decreases |events|
  {
    if |events| == 0 then Some(s)
    else if !Enabled(s, events[0]) then None
    else Run(Step(s, events[0]), events[1..])
  }

  /** The invariants hold after any run from a well-formed state. */
  lemma {:induction false} RunPreservesWellFormed(s: State, events: seq<Event>)
    requires WellFormed(s)
    ensures Run(s, events).Some? ==> WellFormed(Run(s, events).value)
    decreases |events|
  {
    if |events| > 0 && Enabled(s, events[0]) {
      StepPreservesWellFormed(s, events[0]);
      RunPreservesWellFormed(Step(s, events[0]), events[1..]);
    }
  }

  /** A member who joins at `t0` and stays pending is kicked by a sweep of
      a fetchable guild at `t` exactly when the guild's whole timeout has
      passed and its verification is not disabled; otherwise the record
      stays as the join left it. */
  lemma JoinThenSweep(s: State, memberId: string, guildId: string, t0: int, uri: string, t: int)
    ensures var joined := Step(s, Join(memberId, guildId, t0, uri));
            var key := MemberKey(memberId, guildId);
            var swept := Step(joined, Sweep(t, _ => true)).members[key];
            && (t - t0 >= TimeoutSweep.TimeoutMs(s.configs, guildId) && !VerificationDisabled(s.configs, guildId) ==>
                  swept == TimeoutSweep.MarkKicked(joined.members[key], t))
            && (t - t0 < TimeoutSweep.TimeoutMs(s.configs, guildId) || VerificationDisabled(s.configs, guildId) ==>
                  swept == joined.members[key])
  {
  }

  /** The state after a permitted `/config feature disable verification`
      has the guild's verification disabled. */
  lemma DisableTurnsVerificationOff(s: State, guildId: string, admin: ConfigCommand.Caller, superadmins: seq<string>)
    requires ConfigCommand.MayConfigure(admin, superadmins)
    ensures VerificationDisabled(ConfigCommand.Execute(s.configs, guildId, admin, superadmins,
                                                       ConfigCommand.FeatureDisable(ConfigCommand.VerificationFeature)).configs,
                                 guildId)
  {
  }

  /** The sweep as written ignores `verificationEnabled`: after verification
      is disabled, a member who joins gets no verification DM, yet a sweep
      once the guild's timeout has passed still kicks them. */
  lemma {:induction false} DisabledVerificationStillKicksAsWritten(s: State, guildId: string,
                                                                   admin: ConfigCommand.Caller,
                                                                   superadmins: seq<string>, memberId: string,
                                                                   t0: int, uri: string, t: int)
    requires ConfigCommand.MayConfigure(admin, superadmins)
    ensures var configs := ConfigCommand.Execute(s.configs, guildId, admin, superadmins,
                                                 ConfigCommand.FeatureDisable(ConfigCommand.VerificationFeature)).configs;
            var join := Membership.OnGuildMemberAdd(s.members, configs, memberId, guildId, t0, uri);
            var key := MemberKey(memberId, guildId);
            && join.welcome.None?
            && (t - t0 >= TimeoutSweep.TimeoutMs(configs, guildId) ==>
                  TimeoutSweep.SweptStore(join.members, configs, t, _ => true)[key].status == Kicked)
  {
    DisableTurnsVerificationOff(s, guildId, admin, superadmins);
  }

  /** With the sweep that honours the flag, the same sequence never kicks
      the member: at any later sweep the record is the pending record the
      join left. */
  lemma {:induction false} DisabledVerificationNeverKicks(s: State, guildId: string, admin: ConfigCommand.Caller,
                                                          superadmins: seq<string>, memberId: string,
                                                          t0: int, uri: string, t: int, fetched: string -> bool)
    requires ConfigCommand.MayConfigure(admin, superadmins)
    ensures var s1 := Step(s, Configure(guildId, admin, superadmins,
                                        ConfigCommand.FeatureDisable(ConfigCommand.VerificationFeature)));
            var s2 := Step(s1, Join(memberId, guildId, t0, uri));
            var s3 := Step(s2, Sweep(t, fetched));
            var key := MemberKey(memberId, guildId);
            && key in s3.members
            && s3.members[key] == s2.members[key]
            && s3.members[key].status == Pending
  {
    DisableTurnsVerificationOff(s, guildId, admin, superadmins);
  }

  /** Unverify followed by a fresh link: the record ends with the new
      profile's identity, the join time `/unverify` set, and the status the
      blocklist decides; a kick time it had before is still there. */
  lemma {:induction false} UnverifyThenRelink(s: State, userId: string, guildId: string, t1: int,
                                              token: string, code: string, t2: int,
                                              p: OAuthFlow.Profile, discord: OAuthFlow.DiscordOutcome)
    requires MemberKey(userId, guildId) in s.members
    requires token !in s.tokens && token != "" && code != "" && userId != "" && guildId != ""
    requires t1 <= t2 <= t1 + OAuthFlow.STATE_TTL_MS
    ensures var s1 := Step(s, UnverifyCmd(userId, guildId, t1));
            var s2 := Step(s1, Start(Some(guildId), Some(userId), token, t1));
            var s3 := Step(s2, Callback(Some(code), Some(token), t2, OAuthFlow.Exchanged(p), discord));
            var m := s3.members[MemberKey(userId, guildId)];
            && m.rsiHandle == Some(p.handle) && m.rsiOrgs == Some(p.orgs)
            && m.verifiedAt == Some(t2) && m.joinedAt == t1
            && m.kickedAt == s.members[MemberKey(userId, guildId)].kickedAt
            && m.status == OAuthFlow.LinkStatus(s.configs, guildId, p.orgs)
            && s3.tokens == s.tokens
  {
    var key := MemberKey(userId, guildId);
    var s1 := Step(s, UnverifyCmd(userId, guildId, t1));
    var s2 := Step(s1, Start(Some(guildId), Some(userId), token, t1));
    assert s2.tokens[token] == OAuthState(userId, guildId, t1);
    assert key in s1.members && s1.members[key].joinedAt == t1;
    assert s2.tokens - {token} == s.tokens;
  }

  /** `/unverify` on a kicked record gives a pending record that still has
      its kick time: the update does not clear `kickedAt`. */
  lemma UnverifyOfKickedKeepsKickedAt(s: State, userId: string, guildId: string, t: int, now: int)
    requires MemberKey(userId, guildId) in s.members
    requires s.members[MemberKey(userId, guildId)].kickedAt == Some(t)
    ensures var m := Step(s, UnverifyCmd(userId, guildId, now)).members[MemberKey(userId, guildId)];
            m.status == Pending && m.kickedAt == Some(t)
  {
  }
}

=== FILE: listset.dfy ===
/** The duplicate-free list editing the config command applies to the
    blocklist, the allowed roles and the trigger channels: `includes` then
    `push` to add, `indexOf` then `splice(idx, 1)` to remove. */
module ListSet {

  predicate NoDup<T(==,!new)>(xs: seq<T>) {
    forall i, j :: 0 <= i < j < |xs| ==> xs[i] != xs[j]
  }

  /** JavaScript's `indexOf`: the first position of `x`, or -1. */
  function IndexOf<T(==,!new)>(xs: seq<T>, x: T): (r: int)
    ensures r == -1 <==> x !in xs
    ensures r != -1 ==> 0 <= r < |xs| && xs[r] == x && x !in xs[..r]
  {
    if |xs| == 0 then -1
    else if xs[0] == x then 0
    else
      var k := IndexOf(xs[1..], x);
      if k == -1 then -1
      else
        assert xs[..k + 1] == [xs[0]] + xs[1..][..k];
        k + 1
  }

  /** Add `x` unless it is already present. */
  function Add<T(==,!new)>(xs: seq<T>, x: T): (r: seq<T>)
    ensures forall y :: y in r <==> y in xs || y == x
    ensures |xs| <= |r| && r[..|xs|] == xs
    ensures x in xs <==> r == xs
    ensures NoDup(xs) ==> NoDup(r)
  {
    if x in xs then xs else xs + [x]
  }

  /** Remove the first occurrence of `x`, keeping the order of the rest;
      a list without `x` is returned as it is. */
  function Remove<T(==,!new)>(xs: seq<T>, x: T): (r: seq<T>)
    ensures x !in xs ==> r == xs
    ensures x in xs ==> |r| == |xs| - 1
    ensures x in xs ==> exists k :: 0 <= k < |xs| && xs[k] == x && x !in xs[..k]
                                    && r == xs[..k] + xs[k + 1..]
    ensures forall y :: y in r ==> y in xs
    ensures forall y :: y in xs && y != x ==> y in r
    ensures NoDup(xs) ==> NoDup(r) && x !in r
  {
    var idx := IndexOf(xs, x);
    if idx == -1 then xs
    else
      var r := xs[..idx] + xs[idx + 1..];
      assert forall y :: y in xs && y != x ==> y in r by {
        forall y | y in xs && y != x ensures y in r {
          var i :| 0 <= i < |xs| && xs[i] == y;
          if i < idx { assert r[i] == y; } else { assert i != idx; assert r[i - 1] == y; }
        }
      }
      assert NoDup(xs) ==> x !in r by {
        if NoDup(xs) {
          forall i | 0 <= i < |r| ensures r[i] != x {
            if i < idx { assert r[i] == xs[i]; } else { assert r[i] == xs[i + 1]; }
          }
        }
      }
      r
  }

  /** Adding a new element and removing it again restores the list. */
  lemma RemoveAfterAdd<T(!new)>(xs: seq<T>, x: T)
    requires x !in xs
    ensures Remove(Add(xs, x), x) == xs
  {
    var ys := Add(xs, x);
    assert ys == xs + [x];
    assert x !in ys[..|xs|];
    var k := IndexOf(ys, x);
    assert forall i :: 0 <= i < |xs| ==> ys[i] != x;
    assert ys[..k] == xs;
  }

  /** Adding twice is adding once. */
  lemma AddIdempotent<T(!new)>(xs: seq<T>, x: T)
    ensures Add(Add(xs, x), x) == Add(xs, x)
  {
  }

  /** On a duplicate-free list, removing an element that was present and
      adding it back yields the same elements (at the end of the list). */
  lemma AddAfterRemoveSameElements<T(!new)>(xs: seq<T>, x: T)
    requires NoDup(xs) && x in xs
    ensures forall y :: y in Add(Remove(xs, x), x) <==> y in xs
    ensures |Add(Remove(xs, x), x)| == |xs|
  {
  }
}

=== FILE: membership.dfy ===
/** The member-record transitions driven by Discord: the join handler's
    upsert, `/verify`'s create-if-missing, and `/unverify`'s reset to
    pending. DMs, role removal and replies are returned as values; their
    delivery is not modelled. */
module Membership {
  import opened Wrappers
  import opened Schema
  import VerifyLink

  /** The welcome DM: the announced timeout and the verification link. */
  datatype WelcomeDm = WelcomeDm(timeoutHours: int, verifyUrl: string)

  datatype JoinResult = JoinResult(members: MemberStore, welcome: Option<WelcomeDm>)

  /** The record after a (re)join: pending, clock restarted, removal time
      cleared, identity columns kept. */
  function Rejoined(m: Member, now: int): Member {
    m.(status := Pending, joinedAt := now, kickedAt := None)
  }

  /** `onGuildMemberAdd`: upsert the record first, then decide on the DM.
      The DM is skipped exactly when a config row exists with verification
      disabled. */
  function OnGuildMemberAdd(members: MemberStore, configs: ConfigStore, memberId: string,
                            guildId: string, now: int, redirectUri: string): (r: JoinResult)
    ensures var key := MemberKey(memberId, guildId);
      && OnlyKeyChanged(members, r.members, key)
      && key in r.members
      && r.members[key].status == Pending
      && r.members[key].joinedAt == now
      && r.members[key].kickedAt == None
      && (key in members ==> SameIdentity(r.members[key], members[key])
                             && r.members[key].discordId == members[key].discordId
                             && r.members[key].guildId == members[key].guildId)
      && (key !in members ==> r.members[key] == NewPendingMember(key, now))
    ensures r.welcome.None? <==> VerificationDisabled(configs, guildId)
    ensures r.welcome.Some? ==>
      && r.welcome.value.timeoutHours == (if guildId in configs then configs[guildId].timeoutHours else 72)
      && r.welcome.value.verifyUrl == VerifyLink.VerifyUrl(redirectUri, guildId, memberId)
  {
    var key := MemberKey(memberId, guildId);
    var members' := if key in members then members[key := Rejoined(members[key], now)]
                    else members[key := NewPendingMember(key, now)];
    if VerificationDisabled(configs, guildId) then JoinResult(members', None)
    else
      JoinResult(members', Some(WelcomeDm(TimeoutHoursOf(configs, guildId),
                                          VerifyLink.VerifyUrl(redirectUri, guildId, memberId))))
  }

  datatype VerifyReply = AlreadyVerified(handle: Option<string>) | VerifyLinkReply(url: string)

  datatype VerifyResult = VerifyResult(members: MemberStore, reply: VerifyReply)

  /** `/verify`: a verified member is told so and nothing is written;
      otherwise a missing record is created and the link is returned. */
  function VerifyCommand(members: MemberStore, userId: string, guildId: string, now: int,
                         redirectUri: string): (r: VerifyResult)
    ensures var key := MemberKey(userId, guildId);
      && key in r.members
      && OnlyKeyChanged(members, r.members, key)
      && (key in members ==> r.members == members)
      && (key !in members ==> r.members[key] == NewPendingMember(key, now))
      && (r.reply.AlreadyVerified? <==> key in members && members[key].status == Verified)
      && (r.reply.AlreadyVerified? ==> r.reply.handle == members[key].rsiHandle)
      && (r.reply.VerifyLinkReply? ==> r.reply.url == VerifyLink.VerifyUrl(redirectUri, guildId, userId))
  {
    var key := MemberKey(userId, guildId);
    if key in members && members[key].status == Verified then
      VerifyResult(members, AlreadyVerified(members[key].rsiHandle))
    else
      var members' := if key !in members then members[key := NewPendingMember(key, now)] else members;
      VerifyResult(members', VerifyLinkReply(VerifyLink.VerifyUrl(redirectUri, guildId, userId)))
  }

  datatype UnverifyReply = NoRecord | Unverified

  /** The reply, the new table, and whether removal of the verified role is
      attempted (its failure is swallowed, so it has no outcome here). */
  datatype UnverifyResult = UnverifyResult(members: MemberStore, reply: UnverifyReply, roleRemovalAttempted: bool)

  /** The record after `/unverify`: pending, identity cleared, clock
      restarted; `kickedAt` is not part of the update. */
  function Reset(m: Member, now: int): Member {
    m.(status := Pending, rsiHandle := None, citizenRecord := None, rsiOrgs := None,
       rsiAccountCreated := None, verifiedAt := None, joinedAt := now)
  }

  /** `/unverify`. */
  function UnverifyCommand(members: MemberStore, configs: ConfigStore, userId: string,
                           guildId: string, now: int): (r: UnverifyResult)
    ensures var key := MemberKey(userId, guildId);
      && (key !in members ==> r == UnverifyResult(members, NoRecord, false))
      && (key in members ==>
            && r.reply == Unverified
            && OnlyKeyChanged(members, r.members, key)
            && key in r.members
            && r.members[key].status == Pending
            && r.members[key].rsiHandle.None? && r.members[key].citizenRecord.None?
            && r.members[key].rsiOrgs.None? && r.members[key].rsiAccountCreated.None?
            && r.members[key].verifiedAt.None?
            && r.members[key].joinedAt == now
            && r.members[key].kickedAt == members[key].kickedAt
            && r.members[key].discordId == members[key].discordId
            && r.members[key].guildId == members[key].guildId
            && (r.roleRemovalAttempted <==> guildId in configs && Truthy(configs[guildId].verifiedRoleId)))
  {
    var key := MemberKey(userId, guildId);
    if key !in members then UnverifyResult(members, NoRecord, false)
    else
      UnverifyResult(members[key := Reset(members[key], now)], Unverified,
                     guildId in configs && Truthy(configs[guildId].verifiedRoleId))
  }

  /** Unverifying twice gives the table unverifying once at the later time
      gives. */
  lemma UnverifyTwice(members: MemberStore, configs: ConfigStore, userId: string, guildId: string,
                      t1: int, t2: int)
    ensures UnverifyCommand(UnverifyCommand(members, configs, userId, guildId, t1).members,
                            configs, userId, guildId, t2).members
            == UnverifyCommand(members, configs, userId, guildId, t2).members
  {
  }

  /** After either handler a record exists for the pair, and the handlers
      keep the members table well formed. */
  lemma HandlersPreserveWellFormed(members: MemberStore, configs: ConfigStore, userId: string,
                                   guildId: string, now: int, redirectUri: string)
    requires MembersWellFormed(members)
    ensures MembersWellFormed(OnGuildMemberAdd(members, configs, userId, guildId, now, redirectUri).members)
    ensures MembersWellFormed(VerifyCommand(members, userId, guildId, now, redirectUri).members)
    ensures MembersWellFormed(UnverifyCommand(members, configs, userId, guildId, now).members)
  {
  }

  /** The join handler and `/verify` hand out the same link. */
  lemma SameLinkFromBothHandlers(members: MemberStore, configs: ConfigStore, userId: string,
                                 guildId: string, now: int, redirectUri: string)
    requires !(VerificationDisabled(configs, guildId))
    requires !(MemberKey(userId, guildId) in members && members[MemberKey(userId, guildId)].status == Verified)
    ensures OnGuildMemberAdd(members, configs, userId, guildId, now, redirectUri).welcome.value.verifyUrl
            == VerifyCommand(members, userId, guildId, now, redirectUri).reply.url
  {
  }
}

=== FILE: oauth.dfy ===
/** The OAuth state-token protocol of the HTTP server: `/auth/start` issues a
    state token bound to a (user, guild) pair, and `/auth/callback` checks,
    consumes and applies it. The identity provider's token exchange and
    profile fetch, and the Discord calls made after the database update,
    are outcome parameters. */
module OAuthFlow {
  import opened Wrappers
  import opened Schema
  import Blocklist

  /** A state token is accepted for ten minutes after it was issued. */
  const STATE_TTL_MS: int := 10 * 60 * 1000

  /** The profile the identity provider returns for a linked account. */
  datatype Profile = Profile(handle: string, citizenRecord: string, orgs: seq<Org>, accountCreated: string)

  /** What `exchangeCode` followed by `fetchProfile` produced: a profile, or
      an exception (non-2xx or network failure) from either call. */
  datatype Exchange = ExchangeFailed | Exchanged(profile: Profile)

  /** The Discord calls after the database update: fetching the guild and
      the member, and adding the verified role when that is attempted. */
  datatype DiscordOutcome = DiscordOutcome(memberFetched: bool, roleAdded: bool)

  datatype StartReply = StartMissingParams | RedirectToProvider(state: string)

  datatype StartResult = StartResult(tokens: StateStore, reply: StartReply)

  datatype CallbackReply =
    | CallbackMissingParams   // 400 "Missing code or state parameter"
    | InvalidState            // 400 "Invalid or expired state"
    | LinkExpired             // 400 "Verification link expired"
    | CallbackFailed          // 500 "Verification Failed" page
    | Linked(status: Status)  // 200 page, "Verified!" or "Flagged for Review"

  datatype CallbackResult = CallbackResult(tokens: StateStore, members: MemberStore, reply: CallbackReply)

  /** A query parameter counts only when present and non-empty (`!guild`). */
  predicate Present(p: Option<string>) {
    p.Some? && p.value != ""
  }

  /** `/auth/start`: with both parameters, store exactly one fresh token bound
      to (user, guild, now) and redirect with it; otherwise 400 and no token.
      The token stands in for `randomBytes(32)` and must be unused. */
  function AuthStart(tokens: StateStore, guild: Option<string>, user: Option<string>,
                     token: string, now: int): (r: StartResult)
    requires token !in tokens
    ensures !(Present(guild) && Present(user)) ==> r == StartResult(tokens, StartMissingParams)
    ensures Present(guild) && Present(user) ==>
      && r.reply == RedirectToProvider(token)
      && r.tokens.Keys == tokens.Keys + {token}
      && r.tokens[token] == OAuthState(user.value, guild.value, now)
      && (forall s :: s in tokens ==> r.tokens[s] == tokens[s])
  {
    if !Present(guild) || !Present(user) then StartResult(tokens, StartMissingParams)
    else StartResult(tokens[token := OAuthState(user.value, guild.value, now)], RedirectToProvider(token))
  }

  /** A token issued at `createdAt` has expired at `now` when strictly more
      than ten minutes have passed. */
  predicate Expired(createdAt: int, now: int) {
    now - createdAt > STATE_TTL_MS
  }

  /** The status a successful link gives: flagged when the guild's blocklist
      (empty without a config row) matches one of the profile's orgs. */
  function LinkStatus(configs: ConfigStore, guildId: string, orgs: seq<Org>): (s: Status)
    ensures s == Flagged <==> Blocklist.SomeTagBlocked(orgs, BlocklistOf(configs, guildId))
    ensures s == Verified <==> !Blocklist.SomeTagBlocked(orgs, BlocklistOf(configs, guildId))
  {
    if Blocklist.CheckBlocklist(orgs, BlocklistOf(configs, guildId)) then Flagged else Verified
  }

  /** The columns the callback writes onto the record. */
  function ApplyProfile(m: Member, p: Profile, status: Status, now: int): Member {
    m.(rsiHandle := Some(p.handle), citizenRecord := Some(p.citizenRecord), rsiOrgs := Some(p.orgs),
       rsiAccountCreated := Some(p.accountCreated), verifiedAt := Some(now), status := status)
  }

  /** The update `where discordId = .. and guildId = ..`: it touches the
      matching record when there is one and does nothing otherwise. */
  function UpdateMatching(members: MemberStore, key: MemberKey, p: Profile, status: Status, now: int): (r: MemberStore)
    ensures OnlyKeyChanged(members, r, key)
    ensures key in r <==> key in members
    ensures key in members ==> r[key] == ApplyProfile(members[key], p, status, now)
  {
    if key in members then members[key := ApplyProfile(members[key], p, status, now)] else members
  }

  /** The reply after the database update: the page reports the outcome
      only when every Discord call that is attempted succeeds; a failure
      there lands in the catch-all and gives the 500 page. */
  function ReplyAfterUpdate(configs: ConfigStore, guildId: string, status: Status,
                            discord: DiscordOutcome): CallbackReply {
    if !discord.memberFetched then CallbackFailed
    else if status == Verified && guildId in configs && Truthy(configs[guildId].verifiedRoleId)
            && !discord.roleAdded then CallbackFailed
    else Linked(status)
  }

  /** `/auth/callback`. */
  function AuthCallback(tokens: StateStore, members: MemberStore, configs: ConfigStore,
                        code: Option<string>, state: Option<string>, now: int,
                        exchange: Exchange, discord: DiscordOutcome): (r: CallbackResult)
    // Missing parameters and unknown states change nothing.
    ensures !(Present(code) && Present(state)) ==> r == CallbackResult(tokens, members, CallbackMissingParams)
    ensures Present(code) && Present(state) && state.value !in tokens ==>
              r == CallbackResult(tokens, members, InvalidState)
    // A known token is gone afterwards, whatever happens next.
    ensures Present(code) && Present(state) && state.value in tokens ==>
              r.tokens == tokens - {state.value}
    // Expiry: strictly more than ten minutes rejects and changes no member.
    ensures Present(code) && Present(state) && state.value in tokens
            && Expired(tokens[state.value].createdAt, now) ==>
              r.members == members && r.reply == LinkExpired
    // Upstream failure: the token is spent and no member changes.
    ensures Present(code) && Present(state) && state.value in tokens
            && !Expired(tokens[state.value].createdAt, now) && exchange.ExchangeFailed? ==>
              r.members == members && r.reply == CallbackFailed
    // Success: only the token's own record changes, and it gets the profile.
    // The page reports the status exactly when the member fetch succeeded
    // and, for a verified link in a guild with a verified role, the role
    // was added; any other outcome is the 500 page, after the update.
    ensures Present(code) && Present(state) && state.value in tokens
            && !Expired(tokens[state.value].createdAt, now) && exchange.Exchanged? ==>
              var t := tokens[state.value];
              var key := MemberKey(t.discordId, t.guildId);
              var status := LinkStatus(configs, t.guildId, exchange.profile.orgs);
              var roleAttempted := status == Verified && t.guildId in configs
                                   && Truthy(configs[t.guildId].verifiedRoleId);
              && OnlyKeyChanged(members, r.members, key)
              && (key in r.members <==> key in members)
              && (key in members ==> r.members[key] == ApplyProfile(members[key], exchange.profile, status, now))
              && (r.reply == Linked(status) <==> discord.memberFetched && (!roleAttempted || discord.roleAdded))
              && (r.reply != Linked(status) ==> r.reply == CallbackFailed)
  {
    if !Present(code) || !Present(state) then CallbackResult(tokens, members, CallbackMissingParams)
    else if state.value !in tokens then CallbackResult(tokens, members, InvalidState)
    else
      var t := tokens[state.value];
      var tokens' := tokens - {state.value};
      if Expired(t.createdAt, now) then CallbackResult(tokens', members, LinkExpired)
      else
        match exchange
        case ExchangeFailed => CallbackResult(tokens', members, CallbackFailed)
        case Exchanged(p) =>
          var status := LinkStatus(configs, t.guildId, p.orgs);
          var members' := UpdateMatching(members, MemberKey(t.discordId, t.guildId), p, status, now);
          CallbackResult(tokens', members', ReplyAfterUpdate(configs, t.guildId, status, discord))
  }

  /** A token is single-use: replaying the same state after any callback
      that found it takes the unknown-state branch and changes nothing. */
  lemma {:induction false} TokenSingleUse(tokens: StateStore, members: MemberStore, configs: ConfigStore,
                                          code: string, state: string, now: int, now': int,
                                          exchange: Exchange, exchange': Exchange,
                                          discord: DiscordOutcome, discord': DiscordOutcome)
    requires code != "" && state != "" && state in tokens
    ensures var r := AuthCallback(tokens, members, configs, Some(code), Some(state), now, exchange, discord);
            var r' := AuthCallback(r.tokens, r.members, configs, Some(code), Some(state), now', exchange', discord');
            r' == CallbackResult(r.tokens, r.members, InvalidState)
  {
    var r := AuthCallback(tokens, members, configs, Some(code), Some(state), now, exchange, discord);
    assert state !in r.tokens;
  }

  /** The expiry boundary: a token exactly ten minutes old is still
      accepted, one a millisecond older is rejected. */
  lemma ExpiryBoundary(createdAt: int)
    ensures !Expired(createdAt, createdAt + 600000)
    ensures Expired(createdAt, createdAt + 600001)
  {
  }

  /** Issued at T and completed at T + 11 minutes, the link has expired. */
  lemma ElevenMinutesLate(tokens: StateStore, members: MemberStore, configs: ConfigStore,
                          guild: string, user: string, token: string, code: string, t: int,
                          exchange: Exchange, discord: DiscordOutcome)
    requires token !in tokens && guild != "" && user != "" && code != "" && token != ""
    ensures var s := AuthStart(tokens, Some(guild), Some(user), token, t);
            var r := AuthCallback(s.tokens, members, configs, Some(code), Some(token), t + 11 * 60 * 1000,
                                  exchange, discord);
            r.reply == LinkExpired && r.members == members && r.tokens == tokens
  {
    var s := AuthStart(tokens, Some(guild), Some(user), token, t);
    assert s.tokens - {token} == tokens;
  }

  /** Every callback keeps the members table well formed; in particular a
      record that ends up verified carries a handle and a verification time. */
  lemma CallbackPreservesWellFormed(tokens: StateStore, members: MemberStore, configs: ConfigStore,
                                    code: Option<string>, state: Option<string>, now: int,
                                    exchange: Exchange, discord: DiscordOutcome)
    requires MembersWellFormed(members)
    ensures MembersWellFormed(AuthCallback(tokens, members, configs, code, state, now, exchange, discord).members)
  {
  }

  /** The record a successful link leaves depends on the prior record only
      through its join time, removal time and key: no identity field of an
      earlier link survives. */
  lemma LinkOverwritesIdentity(a: Member, b: Member, p: Profile, status: Status, now: int)
    requires a.discordId == b.discordId && a.guildId == b.guildId
    requires a.joinedAt == b.joinedAt && a.kickedAt == b.kickedAt
    ensures ApplyProfile(a, p, status, now) == ApplyProfile(b, p, status, now)
  {
  }
}

=== FILE: schema.dfy ===
/** The three tables of the bot's database: member records keyed by
    (discordId, guildId), guild configuration rows keyed by guildId, and
    OAuth state tokens keyed by the token value. Timestamps are integer
    milliseconds; JSON list columns are sequences. */
module Schema {
  import opened Wrappers

  /** The `status` column; its enum has exactly these four values. */
  datatype Status = Pending | Verified | Kicked | Flagged

  /** One organisation affiliation reported by the identity provider. */
  datatype Org = Org(name: string, tag: string, rank: string)

  /** The unique (discordId, guildId) pair that identifies a member record. */
  datatype MemberKey = MemberKey(discordId: string, guildId: string)

  /** A row of the `members` table. `joinedAt`, `discordId`, `guildId` and
      `status` are required; the identity fields and the two other
      timestamps are nullable. */
  datatype Member = Member(
    discordId: string,
    guildId: string,
    rsiHandle: Option<string>,
    citizenRecord: Option<string>,
    rsiOrgs: Option<seq<Org>>,
    rsiAccountCreated: Option<string>,
    verifiedAt: Option<int>,
    joinedAt: int,
    kickedAt: Option<int>,
    status: Status)

  /** The `members` table; keying by the pair is the uniqueness constraint. */
  type MemberStore = map<MemberKey, Member>

  /** A row of the `guild_config` table. The two feature flags are integers
      (1 enabled, 0 disabled) as in the source. */
  datatype GuildConfig = GuildConfig(
    guildId: string,
    timeoutHours: int,
    blocklist: seq<string>,
    logChannelId: Option<string>,
    verifiedRoleId: Option<string>,
    callToArmsRoleId: Option<string>,
    callToArmsChannelId: Option<string>,
    callToArmsAllowedRoles: seq<string>,
    callToArmsTriggerChannels: seq<string>,
    verificationEnabled: int,
    callToArmsEnabled: int)

  type ConfigStore = map<string, GuildConfig>

  /** A row of the `oauth_state` table, keyed by the state token. */
  datatype OAuthState = OAuthState(discordId: string, guildId: string, createdAt: int)

  type StateStore = map<string, OAuthState>

  const DEFAULT_TIMEOUT_HOURS: int := 72
  const MIN_TIMEOUT_HOURS: int := 1
  const MAX_TIMEOUT_HOURS: int := 720

  /** The row a bare `insert ... values({ guildId })` produces: every other
      column takes its schema default. */
  function DefaultConfig(guildId: string): GuildConfig {
    GuildConfig(guildId, DEFAULT_TIMEOUT_HOURS, [], None, None, None, None, [], [], 0, 1)
  }

  /** The record both the join handler and `/verify` insert. */
  function NewPendingMember(key: MemberKey, now: int): Member {
    Member(key.discordId, key.guildId, None, None, None, None, None, now, None, Pending)
  }

  /** JavaScript truthiness of a nullable id column: present and non-empty. */
  predicate Truthy(o: Option<string>) {
    o.Some? && o.value != ""
  }

  /** The configured timeout, or 72 hours when the guild has no config row
      (`guild?.timeoutHours ?? 72`). */
  function TimeoutHoursOf(configs: ConfigStore, guildId: string): int {
    if guildId in configs then configs[guildId].timeoutHours else DEFAULT_TIMEOUT_HOURS
  }

  /** The blocklist of a guild, or the empty list when it has no row
      (`guild?.blocklist ?? "[]"`). */
  function BlocklistOf(configs: ConfigStore, guildId: string): seq<string> {
    if guildId in configs then configs[guildId].blocklist else []
  }

  /** The guild has a config row whose `verificationEnabled` is falsy
      (`guild && !guild.verificationEnabled`); without a row verification
      is on. */
  predicate VerificationDisabled(configs: ConfigStore, guildId: string) {
    guildId in configs && configs[guildId].verificationEnabled == 0
  }

  /** A verified record carries the identity it was verified with. */
  predicate VerifiedHasIdentity(m: Member) {
    m.status == Verified ==> m.rsiHandle.Some? && m.verifiedAt.Some?
  }

  /** The invariants of the members table: each row sits under its own
      (discordId, guildId) pair, and verified rows carry a handle and a
      verification time. */
  predicate MembersWellFormed(members: MemberStore) {
    forall k :: k in members ==>
      members[k].discordId == k.discordId && members[k].guildId == k.guildId
      && VerifiedHasIdentity(members[k])
  }

  /** The invariants of the config table: each row sits under its own
      guildId and its timeout lies in the range the command accepts. */
  predicate ConfigsWellFormed(configs: ConfigStore) {
    forall g :: g in configs ==>
      configs[g].guildId == g
      && MIN_TIMEOUT_HOURS <= configs[g].timeoutHours <= MAX_TIMEOUT_HOURS
  }

  /** The store is unchanged everywhere except possibly at `key`. */
  predicate OnlyKeyChanged(before: MemberStore, after: MemberStore, key: MemberKey) {
    && after.Keys - {key} == before.Keys - {key}
    && (forall k :: k in before && k != key ==> k in after && after[k] == before[k])
  }

  /** The two records agree on every identity column. */
  predicate SameIdentity(a: Member, b: Member) {
    && a.rsiHandle == b.rsiHandle
    && a.citizenRecord == b.citizenRecord
    && a.rsiOrgs == b.rsiOrgs
    && a.rsiAccountCreated == b.rsiAccountCreated
    && a.verifiedAt == b.verifiedAt
  }
}

=== FILE: stats.dfy ===
/** `/stats`: four per-status counts over one guild's member records and
    their sum. Read only. */
module Stats {
  import opened Schema
  import Membership

  datatype Counts = Counts(verified: nat, pending: nat, kicked: nat, flagged: nat, total: nat)

  /** The keys of the guild's records, selected by the `guildId` column. */
  function GuildRows(members: MemberStore, guildId: string): set<MemberKey> {
    set k | k in members && members[k].guildId == guildId
  }

  /** The keys of the guild's records with status `s`. */
  function WithStatus(members: MemberStore, guildId: string, s: Status): set<MemberKey> {
    set k | k in members && members[k].guildId == guildId && members[k].status == s
  }

  /** `count()` where the guild and the status both match. */
  function CountStatus(members: MemberStore, guildId: string, s: Status): nat {
    |WithStatus(members, guildId, s)|
  }

  /** The four counts and their sum, as the command computes them. Every
      record has exactly one of the four statuses, so the total is the
      number of the guild's records. */
  function GuildStats(members: MemberStore, guildId: string): (r: Counts)
    ensures r.total == |GuildRows(members, guildId)|
    ensures r.total == r.verified + r.pending + r.kicked + r.flagged
    ensures r.verified == |WithStatus(members, guildId, Verified)|
    ensures r.pending == |WithStatus(members, guildId, Pending)|
    ensures r.kicked == |WithStatus(members, guildId, Kicked)|
    ensures r.flagged == |WithStatus(members, guildId, Flagged)|
  {
    var vs, ps, ks, fs := WithStatus(members, guildId, Verified), WithStatus(members, guildId, Pending),
                          WithStatus(members, guildId, Kicked), WithStatus(members, guildId, Flagged);
    StatusSetsDisjoint(members, guildId, Verified, Pending);
    DisjointUnionSize(vs, ps);
    StatusSetsDisjoint(members, guildId, Verified, Kicked);
    StatusSetsDisjoint(members, guildId, Pending, Kicked);
    assert (vs + ps) * ks == {};
    DisjointUnionSize(vs + ps, ks);
    StatusSetsDisjoint(members, guildId, Verified, Flagged);
    StatusSetsDisjoint(members, guildId, Pending, Flagged);
    StatusSetsDisjoint(members, guildId, Kicked, Flagged);
    assert (vs + ps + ks) * fs == {};
    DisjointUnionSize(vs + ps + ks, fs);
    GuildRowsByStatus(members, guildId);
    var v := CountStatus(members, guildId, Verified);
    var p := CountStatus(members, guildId, Pending);
    var k := CountStatus(members, guildId, Kicked);
    var f := CountStatus(members, guildId, Flagged);
    Counts(v, p, k, f, v + p + k + f)
  }

  /** Records of different statuses are different records. */
  lemma StatusSetsDisjoint(members: MemberStore, guildId: string, s1: Status, s2: Status)
    requires s1 != s2
    ensures WithStatus(members, guildId, s1) * WithStatus(members, guildId, s2) == {}
  {
  }

  /** The cardinality of a union of disjoint sets. */
  lemma DisjointUnionSize(a: set<MemberKey>, b: set<MemberKey>)
    requires a * b == {}
    ensures |a + b| == |a| + |b|
  {
  }

  /** The guild's records split by status. */
  lemma GuildRowsByStatus(members: MemberStore, guildId: string)
    ensures GuildRows(members, guildId)
            == WithStatus(members, guildId, Verified) + WithStatus(members, guildId, Pending)
               + WithStatus(members, guildId, Kicked) + WithStatus(members, guildId, Flagged)
  {
  }

  /** Inserting a record under a new key adds that key to the set of its
      own guild and status and to no other. */
  lemma InsertGrowsOneSet(members: MemberStore, key: MemberKey, m: Member, guildId: string, s: Status)
    requires key !in members
    ensures WithStatus(members[key := m], guildId, s)
            == WithStatus(members, guildId, s) + (if m.guildId == guildId && m.status == s then {key} else {})
  {
  }

  /** A first join adds one pending record to the guild's counts; the other
      counts do not move. */
  lemma {:induction false} FirstJoinCountsOnePending(members: MemberStore, configs: ConfigStore,
                                                     memberId: string, guildId: string, now: int,
                                                     redirectUri: string)
    requires MemberKey(memberId, guildId) !in members
    ensures var before := GuildStats(members, guildId);
            var after := GuildStats(Membership.OnGuildMemberAdd(members, configs, memberId, guildId, now,
                                                                redirectUri).members, guildId);
            && after.pending == before.pending + 1
            && after.verified == before.verified && after.kicked == before.kicked
            && after.flagged == before.flagged
            && after.total == before.total + 1
  {
    var key := MemberKey(memberId, guildId);
    var m := NewPendingMember(key, now);
    var after := Membership.OnGuildMemberAdd(members, configs, memberId, guildId, now, redirectUri).members;
    assert after == members[key := m];
    InsertGrowsOneSet(members, key, m, guildId, Verified);
    InsertGrowsOneSet(members, key, m, guildId, Pending);
    InsertGrowsOneSet(members, key, m, guildId, Kicked);
    InsertGrowsOneSet(members, key, m, guildId, Flagged);
    assert key !in WithStatus(members, guildId, Pending);
  }

  /** Counting does not depend on records of other guilds. */
  lemma {:induction false} OtherGuildsDoNotCount(members: MemberStore, guildId: string, k: MemberKey, m: Member)
    requires m.guildId != guildId
    requires k !in members
    ensures GuildStats(members[k := m], guildId) == GuildStats(members, guildId)
  {
    InsertGrowsOneSet(members, k, m, guildId, Verified);
    InsertGrowsOneSet(members, k, m, guildId, Pending);
    InsertGrowsOneSet(members, k, m, guildId, Kicked);
    InsertGrowsOneSet(members, k, m, guildId, Flagged);
  }
}

=== FILE: timeout.dfy ===
/** The periodic timeout sweep (`checkTimeouts`). It selects the pending
    records, groups them by guild, computes each member's remaining time
    against the guild's timeout, and marks expired members kicked or
    reminds those entering the last hour. Discord calls are outcome
    parameters: whether the guild can be fetched decides whether its
    members are processed at all, while the kick itself cannot change the
    result, because success and failure both write the same update. */
module TimeoutSweep {
  import opened Wrappers
  import opened Schema
  import ListSet

  const HOUR_MS: int := 60 * 60 * 1000
  /** The sweep runs every fifteen minutes. */
  const CHECK_INTERVAL_MS: int := 15 * 60 * 1000

  /** The guild's timeout in milliseconds (72 hours without a config row). */
  function TimeoutMs(configs: ConfigStore, guildId: string): int {
    TimeoutHoursOf(configs, guildId) * HOUR_MS
  }

  /** `remaining = timeoutMs - (now - joinedAt)`. */
  function Remaining(timeoutMs: int, now: int, joinedAt: int): int {
    timeoutMs - (now - joinedAt)
  }

  datatype Action = Kick | Remind | Wait

  /** The per-member decision: kick when no time remains, remind within one
      check interval of the one-hour mark, otherwise nothing. */
  function Decide(remaining: int): (a: Action)
    ensures a == Kick <==> remaining <= 0
    ensures a == Remind <==> 2700000 < remaining <= 3600000
    ensures a == Wait <==> (0 < remaining <= 2700000 || 3600000 < remaining)
  {
    if remaining <= 0 then Kick
    else if remaining <= HOUR_MS && remaining > HOUR_MS - CHECK_INTERVAL_MS then Remind
    else Wait
  }

  /** The update a kick writes, on either the success or the failure path. */
  function MarkKicked(m: Member, now: int): Member {
    m.(status := Kicked, kickedAt := Some(now))
  }

  // ---------------------------------------------------------------------
  // Reference definition: the effect of one sweep on each record.

  /** The record `k` after a sweep at `now`, where `guildFetched` says which
      guilds Discord returned. */
  function SweptRecord(members: MemberStore, configs: ConfigStore, now: int,
                       guildFetched: string -> bool, k: MemberKey): (r: Member)
    requires k in members
    ensures r == members[k] || r == MarkKicked(members[k], now)
    ensures r != members[k] ==>
              && members[k].status == Pending && guildFetched(k.guildId)
              && now - members[k].joinedAt >= TimeoutMs(configs, k.guildId)
    ensures (members[k].status == Pending && guildFetched(k.guildId)
             && now - members[k].joinedAt >= TimeoutMs(configs, k.guildId)) ==> r.status == Kicked
  {
    var m := members[k];
    if m.status == Pending && guildFetched(k.guildId)
       && Decide(Remaining(TimeoutMs(configs, k.guildId), now, m.joinedAt)) == Kick
    then MarkKicked(m, now) else m
  }

  /** The whole table after a sweep. */
  function SweptStore(members: MemberStore, configs: ConfigStore, now: int,
                      guildFetched: string -> bool): (r: MemberStore)
    ensures r.Keys == members.Keys
    ensures forall k :: k in r ==> r[k] == SweptRecord(members, configs, now, guildFetched, k)
  {
    map k | k in members :: SweptRecord(members, configs, now, guildFetched, k)
  }

  /** The sweep the reply of `/config feature disable verification`
      describes: a guild whose config row has verification disabled is
      passed over, as a guild Discord did not return is. */
  function SweepsGuild(configs: ConfigStore, guildFetched: string -> bool): string -> bool {
    g => guildFetched(g) && !VerificationDisabled(configs, g)
  }

  /** The whole table after a sweep that skips guilds with verification
      disabled: their records are untouched, the others are swept as usual. */
  function GatedSweptStore(members: MemberStore, configs: ConfigStore, now: int,
                           guildFetched: string -> bool): (r: MemberStore)
    ensures r.Keys == members.Keys
    ensures forall k :: k in r && VerificationDisabled(configs, k.guildId) ==> r[k] == members[k]
    ensures forall k :: k in r && !VerificationDisabled(configs, k.guildId) ==>
              r[k] == SweptRecord(members, configs, now, guildFetched, k)
  {
    SweptStore(members, configs, now, SweepsGuild(configs, guildFetched))
  }

  /** `k` gets a reminder from a sweep at `now`. */
  predicate RemindedAt(members: MemberStore, configs: ConfigStore, now: int,
                       guildFetched: string -> bool, k: MemberKey)
    requires k in members
  {
    members[k].status == Pending && guildFetched(k.guildId)
    && Decide(Remaining(TimeoutMs(configs, k.guildId), now, members[k].joinedAt)) == Remind
  }

  // ---------------------------------------------------------------------
  // Grouping by guild.

  /** The keys of `keys` that belong to guild `gid`, in order. */
  function OfGuild(keys: seq<MemberKey>, gid: string): (r: seq<MemberKey>)
    ensures forall k :: k in r <==> k in keys && k.guildId == gid
    ensures ListSet.NoDup(keys) ==> ListSet.NoDup(r)
    ensures (forall k :: k in keys ==> k.guildId != gid) ==> r == []
  {
    if |keys| == 0 then []
    else
      var rest := OfGuild(keys[1..], gid);
      assert forall k :: k in keys <==> k == keys[0] || k in keys[1..];
      if keys[0].guildId == gid then
        assert ListSet.NoDup(keys) ==> keys[0] !in keys[1..];
        [keys[0]] + rest
      else rest
  }

  lemma {:induction false} OfGuildAppend(keys: seq<MemberKey>, k: MemberKey, gid: string)
    ensures OfGuild(keys + [k], gid) == OfGuild(keys, gid) + (if k.guildId == gid then [k] else [])
    decreases |keys|
  {
    if |keys| == 0 {
      assert keys + [k] == [k];
      assert [k][1..] == [];
    } else {
      assert (keys + [k])[1..] == keys[1..] + [k];
      OfGuildAppend(keys[1..], k, gid);
    }
  }

  /** The `byGuild` map, and the order in which its entries were created
      (a JavaScript `Map` iterates in insertion order). */
  datatype Grouping = Grouping(order: seq<string>, byGuild: map<string, seq<MemberKey>>)

  /** The guilds that occur among `keys`. */
  function GuildsOf(keys: seq<MemberKey>): set<string> {
    set k | k in keys :: k.guildId
  }

  /** `g` groups `keys`: one entry per guild that occurs, each created once,
      holding exactly that guild's keys in their original order. */
  ghost predicate GroupsOf(g: Grouping, keys: seq<MemberKey>) {
    && ListSet.NoDup(g.order)
    && (forall gid :: gid in g.byGuild <==> gid in g.order)
    && (forall gid :: gid in g.order <==> gid in GuildsOf(keys))
    && (forall gid :: gid in g.byGuild ==> g.byGuild[gid] == OfGuild(keys, gid))
  }

  /** One iteration of the grouping loop:
      `list = byGuild.get(guildId) ?? []; list.push(m); byGuild.set(guildId, list)`. */
  function AddToGroup(g: Grouping, k: MemberKey): Grouping {
    var list := if k.guildId in g.byGuild then g.byGuild[k.guildId] else [];
    var order := if k.guildId in g.byGuild then g.order else g.order + [k.guildId];
    Grouping(order, g.byGuild[k.guildId := list + [k]])
  }

  lemma AddToGroupStep(g: Grouping, keys: seq<MemberKey>, k: MemberKey)
    requires GroupsOf(g, keys)
    ensures GroupsOf(AddToGroup(g, k), keys + [k])
  {
    var g' := AddToGroup(g, k);
    assert GuildsOf(keys + [k]) == GuildsOf(keys) + {k.guildId};
    forall gid | gid in g'.byGuild ensures g'.byGuild[gid] == OfGuild(keys + [k], gid) {
      OfGuildAppend(keys, k, gid);
      if gid == k.guildId && k.guildId !in g.byGuild {
        assert forall x :: x in keys ==> x.guildId != gid;
        assert OfGuild(keys, gid) == [];
      }
    }
  }

  /** The grouping loop over the pending records, front to back. */
  function GroupByGuild(keys: seq<MemberKey>): (g: Grouping)
    ensures GroupsOf(g, keys)
    decreases |keys|
  {
    if |keys| == 0 then Grouping([], map[])
    else
      var init := keys[..|keys| - 1];
      var k := keys[|keys| - 1];
      assert keys == init + [k];
      var g := GroupByGuild(init);
      AddToGroupStep(g, init, k);
      AddToGroup(g, k)
  }

  /** Grouping partitions the pending records: each lands in the group of
      its own guild and in no other. */
  lemma GroupingPartitions(keys: seq<MemberKey>, k: MemberKey)
    requires k in keys
    ensures var g := GroupByGuild(keys);
            && k.guildId in g.byGuild && k in g.byGuild[k.guildId]
            && forall gid :: gid in g.byGuild && gid != k.guildId ==> k !in g.byGuild[gid]
  {
    assert k.guildId in GuildsOf(keys);
  }

  // ---------------------------------------------------------------------
  // The sweep as the source performs it.

  /** Kicked and reminded members, in the order the sweep acted on them. */
  datatype SweepResult = SweepResult(members: MemberStore, kicked: seq<MemberKey>, reminded: seq<MemberKey>)

  /** The inner loop over one guild's pending members. */
  function SweepGuildMembers(snapshot: MemberStore, store: MemberStore, keys: seq<MemberKey>,
                             timeoutMs: int, now: int): (r: SweepResult)
    requires ListSet.NoDup(keys)
    requires forall k :: k in keys ==> k in snapshot && k in store && store[k] == snapshot[k]
    ensures r.members.Keys == store.Keys
    ensures forall k :: k in store && k !in keys ==> r.members[k] == store[k]
    ensures forall k :: k in keys && Decide(Remaining(timeoutMs, now, snapshot[k].joinedAt)) == Kick
                        ==> r.members[k] == MarkKicked(snapshot[k], now)
    ensures forall k :: k in keys && Decide(Remaining(timeoutMs, now, snapshot[k].joinedAt)) != Kick
                        ==> r.members[k] == snapshot[k]
    ensures forall k :: k in r.kicked <==>
                        k in keys && Decide(Remaining(timeoutMs, now, snapshot[k].joinedAt)) == Kick
    ensures forall k :: k in r.reminded <==>
                        k in keys && Decide(Remaining(timeoutMs, now, snapshot[k].joinedAt)) == Remind
    decreases |keys|
  {
    if |keys| == 0 then SweepResult(store, [], [])
    else
      var k := keys[0];
      assert forall x :: x in keys <==> x == k || x in keys[1..];
      assert k !in keys[1..];
      var a := Decide(Remaining(timeoutMs, now, snapshot[k].joinedAt));
      var store' := if a == Kick then store[k := MarkKicked(store[k], now)] else store;
      var rest := SweepGuildMembers(snapshot, store', keys[1..], timeoutMs, now);
      SweepResult(rest.members,
                  (if a == Kick then [k] else []) + rest.kicked,
                  (if a == Remind then [k] else []) + rest.reminded)
  }

  /** Every group holds only keys of its own guild, without repetition. */
  ghost predicate GroupsWellFormed(byGuild: map<string, seq<MemberKey>>) {
    forall gid :: gid in byGuild ==>
      ListSet.NoDup(byGuild[gid]) && forall k :: k in byGuild[gid] ==> k.guildId == gid
  }

  /** `k` sits in the group of one of the guilds of `order`. */
  predicate Grouped(order: seq<string>, byGuild: map<string, seq<MemberKey>>, k: MemberKey) {
    k.guildId in order && k.guildId in byGuild && k in byGuild[k.guildId]
  }

  /** What the sweep does to a grouped record, read from the snapshot. */
  function Expected(snapshot: MemberStore, configs: ConfigStore, now: int,
                    guildFetched: string -> bool, k: MemberKey): Member
    requires k in snapshot
  {
    if guildFetched(k.guildId) && Decide(Remaining(TimeoutMs(configs, k.guildId), now, snapshot[k].joinedAt)) == Kick
    then MarkKicked(snapshot[k], now) else snapshot[k]
  }

  /** The action the sweep takes on a grouped record, or `Wait` when its
      guild could not be fetched. */
  function ActionOn(snapshot: MemberStore, configs: ConfigStore, now: int,
                    guildFetched: string -> bool, k: MemberKey): Action
    requires k in snapshot
  {
    if guildFetched(k.guildId) then Decide(Remaining(TimeoutMs(configs, k.guildId), now, snapshot[k].joinedAt))
    else Wait
  }

  /** The outer loop over the guilds in `order`. A guild Discord cannot
      fetch is skipped, and the loop goes on with the next one. */
  function SweepGuilds(snapshot: MemberStore, configs: ConfigStore, store: MemberStore,
                       order: seq<string>, byGuild: map<string, seq<MemberKey>>, now: int,
                       guildFetched: string -> bool): (r: SweepResult)
    requires ListSet.NoDup(order)
    requires forall gid :: gid in order ==> gid in byGuild
    requires GroupsWellFormed(byGuild)
    requires forall k :: Grouped(order, byGuild, k) ==> k in snapshot && k in store && store[k] == snapshot[k]
    ensures r.members.Keys == store.Keys
    ensures forall k :: k in store && !Grouped(order, byGuild, k) ==> r.members[k] == store[k]
    ensures forall k :: Grouped(order, byGuild, k) ==> r.members[k] == Expected(snapshot, configs, now, guildFetched, k)
    ensures forall k :: k in r.kicked <==>
              Grouped(order, byGuild, k) && ActionOn(snapshot, configs, now, guildFetched, k) == Kick
    ensures forall k :: k in r.reminded <==>
              Grouped(order, byGuild, k) && ActionOn(snapshot, configs, now, guildFetched, k) == Remind
    decreases |order|
  {
    if |order| == 0 then SweepResult(store, [], [])
    else
      var gid := order[0];
      var tail := order[1..];
      SplitOrder(order, byGuild);
      if !guildFetched(gid) then
        SweepGuilds(snapshot, configs, store, tail, byGuild, now, guildFetched)
      else
        var here := SweepGuildMembers(snapshot, store, byGuild[gid], TimeoutMs(configs, gid), now);
        var rest := SweepGuilds(snapshot, configs, here.members, tail, byGuild, now, guildFetched);
        SweepResult(rest.members, here.kicked + rest.kicked, here.reminded + rest.reminded)
  }

  /** The first guild of `order` and the rest: a record is grouped under
      `order` exactly when it is in the first guild's group or grouped under
      the rest, and never both. */
  lemma SplitOrder(order: seq<string>, byGuild: map<string, seq<MemberKey>>)
    requires |order| > 0 && ListSet.NoDup(order)
    requires forall gid :: gid in order ==> gid in byGuild
    requires GroupsWellFormed(byGuild)
    ensures ListSet.NoDup(order[1..]) && order[0] !in order[1..]
    ensures forall k :: Grouped(order, byGuild, k) <==> (k in byGuild[order[0]] || Grouped(order[1..], byGuild, k))
    ensures forall k :: Grouped(order[1..], byGuild, k) ==> k !in byGuild[order[0]]
  {
    var gid := order[0];
    var tail := order[1..];
    assert forall g :: g in order <==> g == gid || g in tail;
    assert gid !in tail;
  }

  /** `pending` lists each pending record exactly once: the rows the sweep's
      select returns. */
  ghost predicate PendingListing(members: MemberStore, pending: seq<MemberKey>) {
    ListSet.NoDup(pending)
    && forall k :: k in pending <==> k in members && members[k].status == Pending
  }

  /** The groups built from the pending listing hold exactly the pending
      records, each in the group of its guild. */
  lemma GroupedIffPending(pending: seq<MemberKey>)
    requires ListSet.NoDup(pending)
    ensures var g := GroupByGuild(pending);
            && ListSet.NoDup(g.order)
            && (forall gid :: gid in g.order ==> gid in g.byGuild)
            && GroupsWellFormed(g.byGuild)
            && (forall k :: Grouped(g.order, g.byGuild, k) <==> k in pending)
  {
    var g := GroupByGuild(pending);
    forall k ensures Grouped(g.order, g.byGuild, k) <==> k in pending {
      if k in pending { assert k.guildId in GuildsOf(pending); }
    }
  }

  /** `checkTimeouts`: one sweep at `now`. The result agrees with the
      reference definition record by record: only pending members of a
      fetched guild whose time has run out change, and they become kicked;
      reminders go to exactly the pending members of fetched guilds inside
      the reminder window. */
  function CheckTimeouts(members: MemberStore, configs: ConfigStore, pending: seq<MemberKey>,
                         now: int, guildFetched: string -> bool): (r: SweepResult)
    requires PendingListing(members, pending)
    ensures r.members == SweptStore(members, configs, now, guildFetched)
    ensures forall k :: k in r.kicked <==>
              k in members && SweptRecord(members, configs, now, guildFetched, k) != members[k]
    ensures forall k :: k in r.reminded <==> k in members && RemindedAt(members, configs, now, guildFetched, k)
  {
    if |pending| == 0 then
      NothingPendingNothingChanges(members, configs, pending, now, guildFetched);
      SweepResult(members, [], [])
    else
      var g := GroupByGuild(pending);
      GroupedIffPending(pending);
      GroupedSweepIsReference(members, configs, pending, now, guildFetched);
      SweepGuilds(members, configs, members, g.order, g.byGuild, now, guildFetched)
  }

  lemma NothingPendingNothingChanges(members: MemberStore, configs: ConfigStore, pending: seq<MemberKey>,
                                     now: int, guildFetched: string -> bool)
    requires PendingListing(members, pending) && |pending| == 0
    ensures SweptStore(members, configs, now, guildFetched) == members
    ensures forall k :: k in members ==> !RemindedAt(members, configs, now, guildFetched, k)
  {
    forall k | k in members ensures members[k].status != Pending {
      assert k !in pending;
    }
  }

  lemma GroupedSweepIsReference(members: MemberStore, configs: ConfigStore, pending: seq<MemberKey>,
                                now: int, guildFetched: string -> bool)
    requires PendingListing(members, pending)
    ensures var g := GroupByGuild(pending);
            var r := SweepGuilds(members, configs, members, g.order, g.byGuild, now, guildFetched);
            && r.members == SweptStore(members, configs, now, guildFetched)
            && (forall k :: k in r.kicked <==>
                  k in members && SweptRecord(members, configs, now, guildFetched, k) != members[k])
            && (forall k :: k in r.reminded <==> k in members && RemindedAt(members, configs, now, guildFetched, k))
  {
    var g := GroupByGuild(pending);
    GroupedIffPending(pending);
    var r := SweepGuilds(members, configs, members, g.order, g.byGuild, now, guildFetched);
    var swept := SweptStore(members, configs, now, guildFetched);
    forall k | k in members ensures r.members[k] == swept[k] {
      GroupedRecordIsSwept(members, configs, pending, now, guildFetched, g, r, k);
    }
    assert r.members == swept;
    forall k ensures k in r.kicked <==> k in members && SweptRecord(members, configs, now, guildFetched, k) != members[k] {
      if k in members {
        GroupedRecordIsSwept(members, configs, pending, now, guildFetched, g, r, k);
      }
    }
    forall k ensures k in r.reminded <==> k in members && RemindedAt(members, configs, now, guildFetched, k) {
      if k in members {
        GroupedRecordIsSwept(members, configs, pending, now, guildFetched, g, r, k);
      }
    }
  }

  lemma GroupedRecordIsSwept(members: MemberStore, configs: ConfigStore, pending: seq<MemberKey>,
                             now: int, guildFetched: string -> bool, g: Grouping, r: SweepResult, k: MemberKey)
    requires PendingListing(members, pending) && g == GroupByGuild(pending)
    requires forall x :: Grouped(g.order, g.byGuild, x) <==> x in pending
    requires ListSet.NoDup(g.order) && (forall gid :: gid in g.order ==> gid in g.byGuild)
    requires GroupsWellFormed(g.byGuild)
    requires r == SweepGuilds(members, configs, members, g.order, g.byGuild, now, guildFetched)
    requires k in members
    ensures r.members[k] == SweptRecord(members, configs, now, guildFetched, k)
    ensures k in r.kicked <==> SweptRecord(members, configs, now, guildFetched, k) != members[k]
    ensures k in r.reminded <==> RemindedAt(members, configs, now, guildFetched, k)
  {
    if k in pending {
      assert Grouped(g.order, g.byGuild, k);
      assert members[k].status == Pending;
    } else {
      assert !Grouped(g.order, g.byGuild, k);
      assert members[k].status != Pending;
    }
  }

  // ---------------------------------------------------------------------
  // Properties of the sweep.

  /** Records that are not pending are untouched, and a reminded record is
      left exactly as it was. */
  lemma SweepTouchesOnlyExpiredPending(members: MemberStore, configs: ConfigStore, pending: seq<MemberKey>,
                                       now: int, guildFetched: string -> bool, k: MemberKey)
    requires PendingListing(members, pending) && k in members
    ensures var r := CheckTimeouts(members, configs, pending, now, guildFetched);
            && (members[k].status != Pending ==> r.members[k] == members[k])
            && (k in r.reminded ==> r.members[k] == members[k] && k !in r.kicked)
            && (!guildFetched(k.guildId) ==> r.members[k] == members[k] && k !in r.reminded)
            && (k in r.kicked ==> r.members[k].status == Kicked && r.members[k].kickedAt == Some(now))
  {
  }

  /** The kick and reminder windows never overlap, and more than an hour
      left means no action at all. */
  lemma WindowsDisjoint(remaining: int)
    ensures !(Decide(remaining) == Kick && Decide(remaining) == Remind)
    ensures remaining > HOUR_MS ==> Decide(remaining) == Wait
  {
  }

  /** A second sweep at the same instant changes nothing more: each member
      is kicked at most once. */
  lemma {:induction false} SweepIdempotent(members: MemberStore, configs: ConfigStore, now: int,
                                           guildFetched: string -> bool)
    ensures var once := SweptStore(members, configs, now, guildFetched);
            SweptStore(once, configs, now, guildFetched) == once
  {
    var once := SweptStore(members, configs, now, guildFetched);
    var twice := SweptStore(once, configs, now, guildFetched);
    forall k | k in once ensures twice[k] == once[k] {
      assert once[k] == SweptRecord(members, configs, now, guildFetched, k);
      assert twice[k] == SweptRecord(once, configs, now, guildFetched, k);
    }
  }

  /** Sweeps of a fixed record taken exactly one interval apart: at most one
      of them falls in the reminder window, so the reminder fires once. */
  lemma {:induction false} ReminderAtMostOnce(timeoutMs: int, joinedAt: int, start: int, i: nat, j: nat)
    requires Decide(Remaining(timeoutMs, start + i * CHECK_INTERVAL_MS, joinedAt)) == Remind
    requires Decide(Remaining(timeoutMs, start + j * CHECK_INTERVAL_MS, joinedAt)) == Remind
    ensures i == j
  {
    var ri := Remaining(timeoutMs, start + i * CHECK_INTERVAL_MS, joinedAt);
    var rj := Remaining(timeoutMs, start + j * CHECK_INTERVAL_MS, joinedAt);
    var d := j - i;
    assert ri - rj == d * CHECK_INTERVAL_MS;
    assert -CHECK_INTERVAL_MS < d * CHECK_INTERVAL_MS < CHECK_INTERVAL_MS;
  }

  /** If the first sweep sees more than an hour left, some later sweep one
      whole number of intervals on falls in the reminder window. */
  lemma {:induction false} ReminderReached(timeoutMs: int, joinedAt: int, start: int)
    requires Remaining(timeoutMs, start, joinedAt) > HOUR_MS
    ensures exists i: nat :: Decide(Remaining(timeoutMs, start + i * CHECK_INTERVAL_MS, joinedAt)) == Remind
  {
    var d := Remaining(timeoutMs, start, joinedAt) - HOUR_MS;
    var i: nat := (d + CHECK_INTERVAL_MS - 1) / CHECK_INTERVAL_MS;
    var q := d + CHECK_INTERVAL_MS - 1;
    assert q == i * CHECK_INTERVAL_MS + q % CHECK_INTERVAL_MS;
    assert d <= i * CHECK_INTERVAL_MS < d + CHECK_INTERVAL_MS;
    assert Remaining(timeoutMs, start + i * CHECK_INTERVAL_MS, joinedAt)
           == Remaining(timeoutMs, start, joinedAt) - i * CHECK_INTERVAL_MS;
    assert Decide(Remaining(timeoutMs, start + i * CHECK_INTERVAL_MS, joinedAt)) == Remind;
  }

  /** With a one-hour timeout, a pending member who joined 61 minutes ago is
      kicked by a sweep of a fetchable guild. One who joined 5 minutes ago
      keeps an unchanged record, but with 55 minutes left falls in the
      reminder window and is reminded. */
  lemma OneHourTimeoutScenario(members: MemberStore, configs: ConfigStore, now: int, k: MemberKey,
                               guildFetched: string -> bool)
    requires k in members && members[k].status == Pending && guildFetched(k.guildId)
    requires k.guildId in configs && configs[k.guildId].timeoutHours == 1
    ensures members[k].joinedAt == now - 61 * 60 * 1000 ==>
              SweptStore(members, configs, now, guildFetched)[k] == MarkKicked(members[k], now)
    ensures members[k].joinedAt == now - 5 * 60 * 1000 ==>
              SweptStore(members, configs, now, guildFetched)[k] == members[k]
              && RemindedAt(members, configs, now, guildFetched, k)
  {
  }

  /** A sweep keeps the members table well formed. */
  lemma SweepPreservesWellFormed(members: MemberStore, configs: ConfigStore, now: int,
                                 guildFetched: string -> bool)
    requires MembersWellFormed(members)
    ensures MembersWellFormed(SweptStore(members, configs, now, guildFetched))
  {
  }
}

=== FILE: verifylink.dfy ===
/** The verification link the join handler and `/verify` hand out: the
    configured OAuth redirect URI with its first "/auth/callback" removed
    (JavaScript's `String.replace` with a string pattern), followed by
    `/auth/start?guild=G&user=U`. */
module VerifyLink {
  import opened Wrappers

  const CALLBACK_PATH: string := "/auth/callback"
  const START_PATH: string := "/auth/start"

  /** `pat` occurs in `s` starting at position `i`. */
  predicate OccursAt(s: string, pat: string, i: int) {
    0 <= i && i + |pat| <= |s| && s[i..i + |pat|] == pat
  }

  /** The first position at or after `from` where `pat` occurs. */
  function FindFrom(s: string, pat: string, from: nat): (r: Option<nat>)
    requires from <= |s|
    ensures r.Some? ==> from <= r.value && OccursAt(s, pat, r.value)
    ensures r.Some? ==> forall j :: from <= j < r.value ==> !OccursAt(s, pat, j)
    ensures r.None? ==> forall j :: from <= j ==> !OccursAt(s, pat, j)
    decreases |s| - from
  {
    if from + |pat| > |s| then None
    else if s[from..from + |pat|] == pat then Some(from)
    else FindFrom(s, pat, from + 1)
  }

  /** `s.replace(pat, repl)`: only the first occurrence is replaced; a string
      without `pat` is returned as it is. */
  function ReplaceFirst(s: string, pat: string, repl: string): (r: string)
    ensures (forall j :: !OccursAt(s, pat, j)) ==> r == s
    ensures forall k :: OccursAt(s, pat, k) && (forall j :: 0 <= j < k ==> !OccursAt(s, pat, j))
                        ==> r == s[..k] + repl + s[k + |pat|..]
  {
    match FindFrom(s, pat, 0)
    case None => s
    case Some(k) => s[..k] + repl + s[k + |pat|..]
  }

  /** The link for member `user` of guild `guild`. */
  function VerifyUrl(redirectUri: string, guild: string, user: string): (r: string)
    ensures var query := START_PATH + "?guild=" + guild + "&user=" + user;
            && |query| <= |r|
            && r[|r| - |query|..] == query
            && r[..|r| - |query|] == ReplaceFirst(redirectUri, CALLBACK_PATH, "")
  {
    ReplaceFirst(redirectUri, CALLBACK_PATH, "") + START_PATH + "?guild=" + guild + "&user=" + user
  }

  /** A redirect URI of the shape `base + "/auth/callback"`, where the path
      does not already occur earlier, yields the link `base + "/auth/start?..."`. */
  lemma UrlFromCallbackUri(base: string, guild: string, user: string)
    requires forall j :: 0 <= j < |base| ==> !OccursAt(base + CALLBACK_PATH, CALLBACK_PATH, j)
    ensures VerifyUrl(base + CALLBACK_PATH, guild, user)
            == base + "/auth/start?guild=" + guild + "&user=" + user
  {
    var s := base + CALLBACK_PATH;
    assert s[|base|..|base| + |CALLBACK_PATH|] == CALLBACK_PATH;
    assert OccursAt(s, CALLBACK_PATH, |base|);
    assert s[..|base|] == base;
    assert ReplaceFirst(s, CALLBACK_PATH, "") == base;
  }

  /** A redirect URI that does not contain "/auth/callback" is kept whole. */
  lemma UrlFromOtherUri(uri: string, guild: string, user: string)
    requires forall j :: !OccursAt(uri, CALLBACK_PATH, j)
    ensures VerifyUrl(uri, guild, user) == uri + "/auth/start?guild=" + guild + "&user=" + user
  {
  }
}

=== FILE: wrappers.dfy ===
/** Optional values, used for the nullable columns of the store and for
    query parameters that may be absent. */
module Wrappers {

  datatype Option<+T> = None | Some(value: T)
}
